=== FILE: README.md ===
# Food-recommendation services: response normaliser and request checks

This project models the pure logic of three small web services that turn an
emotion analysis into snack recommendations. Each service gathers a VAD
score (valence, arousal, dominance), the user's intents and some contextual
data. It sends the triple `[vad_score, intent, contextual_data]` to a
chat-completion service. The service answers with a JSON object. The code
parses it with `json.loads` and normalises it into a fixed-shape response.

Two pieces of logic are modelled and proved:

- **The response normaliser.** It appears three times (app.py,
  food_recommendations.py, simple.py). Keys that lower-case to `emotion`,
  `top products` or `top combos` are renamed, and the key that comes later
  in the dict wins. An emotion list is joined with single spaces after each
  word is stripped, and a string emotion is stripped. The join itself is
  not stripped again, so a blank first or last word leaves a space at that
  end (see Findings). The response is assembled with defaults `""` and `[]`.
- **Request checks and coercions.** food_recommendations.py checks the body
  in a fixed order. app.py zero-fills the VAD score, turns the intent into a
  list and falls back to an empty context. Both services check the API key
  before calling the chat-completion service.

Both findings are modelled twice, as the code is written and as it is
evidently intended. `Normalizer.Version` (`AsWritten` or `Intended`) selects
the version:

- In the normaliser, `Intended` also strips the joined emotion list.
- In app.py, `Intended` also lets an `HTTPException` through the outer
  `except` ladder of `get_food_recommendations`.

Every service member takes the version as a parameter. Lemmas that hold only
for the intended code say so, and lemmas about the code as written carry
`AsWritten` in their names or arguments.

JSON values are the `Values.Json` datatype. An object is an ordered list of
pairs. `Values.Loads` is `json.loads` on the service's top-level object: a
repeated key keeps the place of its first occurrence and takes the value of
its last, so the pairs of the resulting dict are in the order `items()`
yields them. Python's `str.strip`, `str.lower`, `' '.join`, `str()`,
`repr()`, truthiness and `len()` are written out in `Text` and `Values`.

The Gradio client and the chat-completion service are parameters. Each is a
function from its input to its answer, or to a failure. The API key is an
`Option<string>`. app.py's endpoints serialise their reply inside their own
`try`, and a NaN or an infinity in it fails there (`Values.Finite`).

Files: `wrappers.dfy` (Option, Result), `text.dfy` (string helpers),
`values.dfy` (JSON values and Python dict semantics), `normalizer.dfy` (the
shared normaliser), `api_key.dfy` (the shared key gate), `app.dfy`,
`food_recommendations.dfy`, `simple.dfy` (one module per service).

Key canonicalisation has no `products` or `combos` synonyms, and keys are
not trimmed before they are compared. None of the three copies of the code
does either.

## Model

| member | source | states |
|---|---|---|
| Text.Strip | app.py:733 | the result of `str.strip` has no Python whitespace at either end |
| Text.StripFixedIff | app.py:733 | a string is unchanged by stripping exactly when it has no whitespace at either end |
| Text.StripBlank | app.py:731 | stripping leaves the empty string exactly when the string is all whitespace, as a blank emotion word is |
| Text.StripIdempotent | app.py:733 | stripping twice equals stripping once |
| Text.StripLeft | app.py:733 | whitespace in front of a string that starts with a non-space is removed |
| Text.StripRight | app.py:733 | whitespace behind a string that starts with a non-space is removed |
| Text.StripPadding | app.py:731 | stripping removes any whitespace padding around an already-stripped string |
| Text.Lower | app.py:718 | lower-casing keeps the length of the key |
| Text.JoinTwo | app.py:731 | joining two words puts exactly one space between them |
| Text.JoinEnds | app.py:731 | a join starts with its first part and ends with its last part |
| Text.JoinStripped | app.py:731 | a join of stripped words whose first and last words are non-empty is itself stripped |
| Values.FalsyValues | food_recommendations.py:109 | a value is falsy exactly when it is `None`, `False`, `0`, `0.0`, `-0.0`, `""`, `[]` or `{}` |
| Values.PyLen | app.py:258 | `len()` is defined exactly for strings, lists and dicts |
| Values.GetSpec | app.py:737-740 | a lookup succeeds exactly when the key is present, and returns the value of the last pair with that key |
| Values.GetUnique | app.py:737-740 | in a dict with distinct keys, each pair's key looks up its own value |
| Values.GetTwo | app.py:159-162 | in a two-entry dict literal, each key reads its own value and every other key is absent |
| Values.PutSpec | app.py:726 | dict assignment adds at most one pair, introduces no key other than the assigned one, and keeps keys distinct; assigning a key already present keeps every position's key and leaves every pair of another key untouched |
| Values.PutNew | app.py:726 | assigning a key the dict does not hold appends it at the end |
| Values.GetPut | app.py:726 | after assigning `k`, looking up `k` gives the new value and every other key is unchanged |
| Values.GetSnoc | app.py:713 | a pair added after all others is the last occurrence of its key |
| Values.Loads | app.py:713 | parsing an object yields a dict with distinct keys |
| Values.LoadsGet | app.py:713 | parsing keeps, for every key, the value of its last occurrence in the text |
| Values.LoadsUnique | app.py:713 | an object without repeated keys parses to its own pairs in their order |
| Values.LoadsHasKey | app.py:713 | parsing keeps exactly the keys of the object |
| Values.LoadsKeyOrder | app.py:713 | the parsed keys come in the order of their first occurrence in the text, so a repeated key keeps its first place |
| Values.LoadsRepeatedKey | app.py:713 | `{"Emotion": a, "emotion": b, "Emotion": c}` parses to `{"Emotion": c, "emotion": b}`: first place, last value |
| Values.StrOfString | app.py:731 | `str()` of a string is the string itself |
| Normalizer.CanonicalKey | app.py:717-725 | a key is either kept or renamed to one of `emotion`, `top_products` and `top_combos` |
| Normalizer.CanonicalKeyTargets | app.py:717-726 | a key becomes `emotion`, `top_products` or `top_combos` exactly when it lower-cases to `emotion`, `top products` or `top combos`, or already is that name; every other key is kept |
| Normalizer.CanonicalKeyExamples | app.py:717-726 | `Top Products` and `EMOTION` are renamed, `top_products` maps to itself, and `products`, ` Top Products` and `Top_Products` are kept |
| Normalizer.LastBySpec | app.py:716-726 | the value found for a name is that of the last pair whose key maps to it, and there is none when no key does |
| Normalizer.LastWithSpec | food_recommendations.py:557-567 | the value kept for a canonical name is the value of the last dict entry, in iteration order, whose key maps to it; there is none when no key does |
| Normalizer.Canonicalise | food_recommendations.py:557-567 | the renamed dict has distinct keys, and each name holds the value of the last entry whose key maps to it |
| Normalizer.CanonicaliseCanonical | simple.py:81-90 | a dict whose keys are distinct and already canonical is left unchanged |
| Normalizer.Words | app.py:731 | there is one stripped word per list element |
| Normalizer.Joined | app.py:731 | as intended, the joined emotion list has no whitespace at either end |
| Normalizer.EmotionBy | app.py:729-740 | the emotion is never a list; a value that is neither a list nor a string is kept; as intended, a string emotion is stripped |
| Normalizer.CoerceEmotionSpec | app.py:729-733 | coercion keeps keys distinct, leaves an absent emotion absent, and replaces a present one by its joined or stripped form, or keeps it if it is neither a list nor a string |
| Normalizer.CoerceEmotionOthers | app.py:729-733 | coercing the emotion leaves every other key's value unchanged |
| Normalizer.CoerceEmotionWords | simple.py:92-96 | in either version, an emotion list of non-empty stripped strings becomes those words joined by single spaces; the empty list gives `""` |
| Normalizer.JoinedAgreeWithoutBlankEnds | app.py:731 | the join as written and as intended agree unless the first or last word of a list of two or more is blank |
| Normalizer.CoercionsAgreeWithoutBlankEnds | food_recommendations.py:570-576 | the coercion as written and as intended agree unless the first or last word of an emotion list is blank |
| Normalizer.Assemble | app.py:736-742 | each field is the value of its key when the key is present, and otherwise `""` for the emotion and `[]` for the lists |
| Normalizer.NormalizeLists | app.py:736-742 | in either version, the products and combos are the values of the last entries mapping to them, or `[]` |
| Normalizer.NormalizeEmotion | app.py:729-742 | in either version, the emotion is the coerced value of the last entry mapping to `emotion`, or `""` |
| Normalizer.NormalizeSpec | app.py:716-742 | both of the above, plus: the emotion is never a list, and as intended a string emotion is stripped |
| Normalizer.NormalizeIgnoresOtherKeys | app.py:716-742 | adding or removing an entry whose key maps to none of the three names never changes the result |
| Normalizer.LastWithDrop | food_recommendations.py:557-567 | an entry whose key maps to another name does not affect the value kept for a name |
| Normalizer.RepeatedKeyEmotion | app.py:713-726 | for `{"Emotion": a, "emotion": b, "Emotion": c}` the emotion comes from `b`, because the repeated key keeps its first place |
| Normalizer.ResponseJson | app.py:736-742 | the response has distinct keys: five with the `status` field, four without |
| Normalizer.ResponseKeysCanonical | app.py:736-742 | every response key is already canonical |
| Normalizer.OutputKeysCanonical | app.py:717-726 | `emotion`, `top_products` and `top_combos` map to themselves |
| Normalizer.StatusKeysCanonical | app.py:736-742 | `status` and `message` map to themselves |
| Normalizer.ResponseDict | app.py:736-742 | the response parses to itself, renames to itself and reads back the emotion, products and combos it was built from |
| Normalizer.RenormalizeRecord | food_recommendations.py:578-585 | in either version, a record whose emotion is not a list and is stripped if it is a string survives rendering, parsing and normalising unchanged |
| Normalizer.NormalizeIdempotent | food_recommendations.py:554-585 | as intended, normalising a rendered response gives back the same record, with or without the `status` field |
| Normalizer.WordsOfStrings | app.py:731 | stripped strings in an emotion list become exactly themselves as words |
| Normalizer.TwoWordsJoin | app.py:731 | in either version, two non-empty stripped words are joined as `a b` |
| Normalizer.TopProductsLastWith | app.py:717-726 | in a two-key answer, `Top Products` supplies the products, and nothing supplies the combos |
| Normalizer.NormalizeListEmotion | app.py:729-742 | with a list emotion and products but no combos, the record holds the joined list, the products and `[]` |
| Normalizer.TopProductsAndTwoWords | app.py:716-742 | in either version, `{"Top Products": p, "emotion": [a, b]}` normalises to emotion `a b`, products `p` and combos `[]` |
| Normalizer.JoinBlankFirst | app.py:731 | as written, a blank first word leaves a leading space in the join |
| Normalizer.AsWrittenBlankFirstWord | app.py:731 | as written, `["", w]` yields the emotion `" " + w` |
| Normalizer.StripLeadingSpace | app.py:733 | stripping `" " + w` gives `w` for a stripped `w` |
| Normalizer.AsWrittenNotIdempotent | app.py:729-733 | as written, `["", w]` gives `" " + w` on the first pass and `w` on the second |
| Normalizer.AsWrittenAgreesWithoutBlankEnds | simple.py:92-103 | the normaliser as written and as intended agree unless the emotion list has a blank first or last word |
| Normalizer.AsWrittenIdempotentWithoutBlankEnds | food_recommendations.py:554-585 | as written, the normaliser is idempotent on answers without blank first or last words |
| Normalizer.NormalizeFixedPoint | food_recommendations.py:554-585 | re-normalising a rendered response reproduces the record, for every answer as intended and for answers without blank end words as written |
| ApiKey.CheckKey | app.py:273-287 | an absent or empty key is missing, a key of 1 to 29 characters is too short, and a key of 30 or more is accepted |
| App.SelectSource | app.py:89-126 | an upload wins; otherwise a non-empty URL, or else a non-empty path, is accepted exactly when it is usable, rejected with 400 naming it when it is not, and an `OSError` when `Path.exists` raises on it; with neither, 400 |
| App.VideoAnalysis | app.py:144-162 | a non-dict result raises; otherwise the VAD score is a 3-element list (the given one if it was one, else `[0, 0, 0]`), and the context is the given one if it was a dict, else `{}` |
| App.DirectAnalysis | app.py:208-223 | the request is rejected with 400 exactly when the VAD score does not have 3 values; otherwise score and context pass through |
| App.FillVad | app.py:257-259 | `len()` raises on a value with no length; otherwise the result has length 3 and is the input itself if it had length 3, else `[0, 0, 0]` |
| App.FillVadIdempotent | app.py:257-259 | zero-filling an already filled score changes nothing |
| App.CoerceIntent | app.py:265-267 | the intent is always a list: a list is kept, a truthy value `x` becomes `[x]` and a falsy one `[]` |
| App.CoerceIntentIdempotent | app.py:265-267 | coercing an intent twice equals coercing it once |
| App.PrepareInput | app.py:256-270 | the input sent upstream is a triple, and only Python errors can stop it |
| App.PrepareInputSpec | app.py:256-270 | the triple holds the zero-filled VAD score, the coerced intent taken from the context, and the context, which is a dict |
| App.Attempt | app.py:256-745 | input errors come first, then a missing or short key, then the service; success is the parsed and normalised answer in the chosen version, and a failing service or a non-dict answer gives 503 |
| App.Ladder | app.py:754-773 | as evidently intended, an HTTP error is passed on unchanged and any other error becomes a 500 with its text |
| App.Recommend | app.py:245-773 | as evidently intended, the function succeeds exactly when the intended attempt does; an HTTP error of the attempt passes unchanged, and a Python error becomes 500 `An internal server error occurred: ` followed by its text |
| App.RecommendAsWritten | app.py:245-773 | as written, the function succeeds exactly when the as-written attempt does, with its value, and every failure, whatever raised it, is the `NameError` about `requests` |
| App.Surface | app.py:176-184 | an endpoint passes HTTP errors on and turns any other error into a 500 with its prefix |
| App.ProcessVideo | app.py:79-184 | only HTTP errors reach the caller; a bad source is reported first (an `OSError` from `Path.exists` as a 500 with the video prefix), and a Gradio failure or non-dict result gives 500 with the video prefix; a failed recommendation answers with its HTTP error, or a 500 with the video prefix and the error's text; a recommendation holding a NaN or an infinity gives the 500 `JSONResponse` raises; success happens exactly when the recommendation succeeds and holds neither, and its body carries `status`, the rendered recommendation as `data`, and the Gradio metadata |
| App.ProcessDirect | app.py:187-243 | only HTTP errors reach the caller, a bad VAD score is always a 400, a failed recommendation answers with its HTTP error or a 500 with the input prefix and the error's text, a recommendation holding a NaN or an infinity gives the 500 `JSONResponse` raises, success happens exactly when the recommendation succeeds and holds neither, and its body carries `status`, the rendered recommendation as `data`, and the direct-input metadata |
| App.VideoAnalysisPrepares | app.py:144-162 | what `process_video` hands on always passes `get_food_recommendations`' own input checks, with the same VAD score |
| App.DirectAnalysisPrepares | app.py:208-223 | a well-formed direct request sends its own score, the coerced intent and its context upstream |
| App.DirectSucceeds | app.py:187-243 | a direct request succeeds exactly when its score has 3 values, the key is accepted, the service answers an object and the normalised answer holds no NaN or infinity; `data` is that answer parsed and normalised |
| App.Render | app.py:167-174 | `JSONResponse` accepts the content exactly when no float in it is a NaN or an infinity, passes it unchanged, and otherwise raises its `ValueError` |
| App.EnvelopeRenders | app.py:167-174 | a success body can be serialised exactly when its recommendation holds no NaN or infinity |
| App.NanEmotionFails | app.py:225-243 | in either version, an answer `{"emotion": NaN}` to a well-formed request with an accepted key gives 500 `Error processing input: Out of range float values are not JSON compliant` |
| App.VersionsRenderAlike | app.py:729-742 | the normaliser as written and as intended render the same answers |
| App.DirectRejectsBeforeService | app.py:208-212 | the reply to a bad VAD score depends on neither the key nor the service |
| App.KeyCheckedBeforeService | app.py:273-287 | the reply to a rejected key does not depend on the service |
| App.DirectIntendedErrors | app.py:273-287 | as evidently intended, a missing key, a short key and a failing service each give their own error |
| App.VideoKeyErrors | app.py:79-184 | once the video is analysed, a missing or short key gives its own 500 as intended, and the 500 `Error processing video: name 'requests' is not defined` as written |
| App.DirectAsWrittenMasksErrors | app.py:761 | as written, a missing or short key and a failing service all give the same 500 about `requests`, and the only other failure after the VAD check is the rendering 500 |
| App.VersionsAgreeOnSuccess | app.py:187-243 | the two versions succeed on the same direct requests, with the same reply unless the answer's emotion list has a blank end word |
| FoodRecommendations.AllNumbers | food_recommendations.py:127 | the `all(...)` expression is true exactly when every element is an int, float or bool |
| FoodRecommendations.AllStrings | food_recommendations.py:133 | the `all(...)` expression is true exactly when every element is a string |
| FoodRecommendations.Require | food_recommendations.py:118-125 | a field read succeeds exactly when the key is present, and otherwise gives 400 naming the key in single quotes |
| FoodRecommendations.RequiredFields | food_recommendations.py:118-125 | the fields are read in the order `vad_score`, `intent_selections`, `contextual_data`; the first missing one gives 400 naming it, and when all are present their values come back in that order |
| FoodRecommendations.CheckShapes | food_recommendations.py:127-143 | the first failing shape check gives its own 400; the fields pass exactly when the VAD score is a list of 3 numbers, the intents a list of strings and the context a list of 4 elements, and then form the triple sent upstream |
| FoodRecommendations.Validate | food_recommendations.py:109-143 | an empty body gives 400, and a non-object body gives 500. Otherwise the first missing field gives 400. A body passes exactly when the VAD score is a list of 3 numbers, the intents are a list of strings and the context is a list of 4 elements. The service then receives those three values in order |
| FoodRecommendations.ShapeChecksInOrder | food_recommendations.py:127-143 | the VAD check decides first, then the intent check, then the context check |
| FoodRecommendations.Recommend | food_recommendations.py:109-611 | validation errors come first, then the key errors (the missing-key body has empty recommendation fields), then 503 for a failing service. An answer that is not an object gives the catch-all's 500, since `items()` runs outside the `try` around the call. The status is 200 exactly when all pass and the answer is an object, and the body is then the parsed and normalised response. The status is always 200, 400, 500 or 503 |
| FoodRecommendations.ValidationFirst | food_recommendations.py:109-162 | the reply to an invalid body depends on neither the key nor the service, and is a 400 or a 500 |
| FoodRecommendations.KeyBeforeService | food_recommendations.py:146-162 | the reply to a rejected key does not depend on the service |
| FoodRecommendations.SuccessBodyIsFixedPoint | food_recommendations.py:554-585 | a success body sent back as the service's answer gives the same reply: for every answer as intended, and for answers without a blank end word in an emotion list as written |
| FoodRecommendations.SuccessBodyShape | food_recommendations.py:578-585 | a success body has distinct keys, with status `success`, the fixed message, and the three fields, and its emotion is not a list |
| Simple.VideoAnalysis | simple.py:20-27 | a non-dict result raises; otherwise the VAD score and context are read from `Final VAD Score` and `Contextual Information` with defaults and no checks |
| Simple.InputTriple | simple.py:34-37 | the triple is the VAD score, the fixed intent `["Hot", "Light", "Tangy"]` and the context, with `null` for an absent field |
| Simple.IntentIsFixed | simple.py:36 | the intent sent upstream never depends on the analysis |
| Simple.VideoToInput | simple.py:20-37 | the Gradio fields reach the triple unchanged, whatever their shape |
| Simple.Response | simple.py:78-103 | the response is exactly four pairs in order: the coerced emotion of the last parsed entry mapping to `emotion`, the products and combos of the last entries mapping to them (or `[]`), and the fixed message |
| Simple.SameAsOtherCopies | simple.py:98-103 | the response equals the other services' response without the leading `status` pair |
| Simple.ResponseIdempotent | simple.py:78-103 | a response sent back as the answer reproduces it: for every answer as intended, and for answers without a blank end word in an emotion list as written |

## Left out

- The Gradio and chat-completion calls, the prompt text and the product list inside it are left out. They are foreign network services and natural-language instructions. Their answers are parameters.
- JSON text is not lexed. The service's answer arrives as the pairs of its top-level object in text order, or as a failure when the call or `json.loads` would raise. Only the top-level object goes through `Values.Loads`. Objects nested inside values are carried as given, so a repeated key inside a nested object is not resolved.
- The Gradio result and the request bodies are taken to be Python dicts, so their keys are distinct. `Values.Get` returns the last occurrence's value on any pairs, which is the value `json.loads` keeps (`Values.LoadsGet`).
- `is_valid_url`, `Path.exists`, the temporary upload file and its clean-up are left out. They depend on `urllib.parse` and the file system, so whether a video source is usable, or the text of the `OSError` `Path.exists` raised on it, is a parameter of `App.SelectSource`.
- App.ProcessDirect, App.ProcessVideo, App.DirectSucceeds and App.EnvelopeRenders: the `Json` strings cannot hold a lone surrogate such as `"\ud800"`, which `json.loads` accepts. `JSONResponse` encodes its text as UTF-8 and raises `UnicodeEncodeError` on one, so app.py answers such an answer with 500 `Error processing input: 'utf-8' codec can't encode character ...` (or the video prefix). The model does not state this 500, and its success conditions hold only for answers without lone surrogates. food_recommendations.py is unaffected, because `jsonify` escapes such text to ASCII.
- App.ProcessVideo: the text of a Gradio failure is a parameter, because the client's errors cannot be seen.
- The error inside a Gradio upload and its `finally` clean-up are left out, as file I/O.
- Rate limiting, CORS, security headers, logging and the health-check routes are left out. They are framework configuration.
- The JSONDecodeError branch at app.py:754 is unreachable: the inner catch-all at app.py:747 already turns parse errors into 503. It is modelled only as part of `App.RecommendAsWritten`.
- In food_recommendations.py the outer `except` clauses for `JSONDecodeError` and `RequestException` cannot fire. Parsing happens inside the inner catch-all, so every other error is the catch-all's 500.
- Non-JSON request bodies to `/recommend` are left out. What `get_json()` does with them depends on the Flask version. Before Flask 2.1 it returns `None` for a body that is not declared as JSON, which the code answers with 400 "No input data provided". Later versions raise, and that ends in the catch-all's 500.
- simple.py's routes are left out: the welcome text, the query-string read, the missing return value, the missing imports and the `_name_` guard. As written, the module cannot serve a request.
- simple.py's key is passed to the client without a check, and that behaviour is left out.
- VAD values are left out as numbers. Only list shape and "is a number" matter, and floats are carried as their `repr` text.
- Text.Lower: only ASCII letters are lower-cased. This is exact for the three comparisons. In the Unicode case tables the only non-ASCII character whose lower case is all ASCII is U+212A KELVIN SIGN, which gives `k`; `İ` gives `i` followed by the non-ASCII U+0307. None of `emotion`, `top products` and `top combos` holds a `k`, so a key with a non-ASCII character never lower-cases to one of them.
- Values.Repr: string quoting is simplified. Only the ASCII control characters and a few Latin-1 code points are escaped, so `str()` of a non-string emotion word can differ from Python's for other non-printable characters.
- FoodRecommendations.MissingField puts the key in single quotes without escaping it, as `repr` would. This is exact for the three field names, which hold no character `repr` escapes.
- SuccessBodyIsFixedPoint: in the `AsWritten` version it is stated only for answers without a blank word at either end of an emotion list. For the other answers the code is not idempotent (first Findings row, `Normalizer.AsWrittenNotIdempotent`).
- ResponseIdempotent: the same restriction, for the same reason.
- The `timeout` decorator on `/recommend` (food_recommendations.py:38-72) is left out. It measures wall-clock time in a thread, and its 504 does not depend on the request.
- The `ValueError` text for a NaN or an infinity is the one Python gives up to version 3.12. Later versions append the offending value's `repr`.
- food_recommendations.py replies through `jsonify`, which writes NaN and infinities as bare tokens and does not raise, so its replies need no rendering check.

## Findings

| source | as written | input that shows it | evidently intended | confidence | as-written member | corrected member |
|---|---|---|---|---|---|---|
| app.py:731, food_recommendations.py:573, simple.py:94 | a list emotion is joined after stripping each word, but the join is not stripped, so a blank first or last word leaves a space at that end and a second pass strips it; the normaliser is not idempotent | the service answer `{"emotion": ["", "Calm"]}` gives emotion `" Calm"`; normalising that response again gives `"Calm"` | strip the joined string as well, so the emotion is always stripped and normalising is idempotent | not executed; high | Normalizer.AsWrittenNotIdempotent | Normalizer.NormalizeIdempotent |
| app.py:761 | `requests` is never imported, so evaluating the `except requests.exceptions.RequestException` clause raises `NameError` for every exception that reaches it, including the service's 503 and the key checks' 500s | a direct request with 3 VAD values and no API key: the endpoint answers 500 `Error processing input: name 'requests' is not defined` in place of 500 `Server configuration error: GROQ_API_KEY not found` | `HTTPException`s raised inside `get_food_recommendations` reach the caller, and other errors become a 500 with their text. This needs two changes: importing `requests`, and re-raising `HTTPException` before the generic `except Exception` at app.py:768, which would otherwise turn them into 500 "An internal server error occurred: ..." | not executed; high | App.DirectAsWrittenMasksErrors, App.VideoKeyErrors | App.DirectIntendedErrors, App.VideoKeyErrors |

=== FILE: api_key.dfy ===
/** The API-key gate that app.py and food_recommendations.py both apply
    before calling the chat-completion service. */
module ApiKey {
  import opened Wrappers

  const MinKeyLength := 30

  datatype Gate = Missing | TooShort | Accepted

  /** `if not key` fails first (absent or empty), then `len(key) < 30`. */
  function CheckKey(key: Option<string>): (g: Gate)
    ensures g == Missing <==> key == None || key == Some("")
    ensures g == TooShort <==> key.Some? && 0 < |key.value| < MinKeyLength
    ensures g == Accepted <==> key.Some? && |key.value| >= MinKeyLength
  {
    match key
    case None => Missing
    case Some(k) => if k == "" then Missing else if |k| < MinKeyLength then TooShort else Accepted
  }
}

=== FILE: app.dfy ===
/**
 * The FastAPI service in app.py: the two endpoints that gather a VAD score
 * and contextual data, and `get_food_recommendations`, which coerces them,
 * checks the API key, asks the chat-completion service and normalises its
 * answer. The Gradio client and the chat-completion service are parameters:
 * functions from their input to a result, or to a failure.
 */
module App {
  import opened Wrappers
  import opened Text
  import opened Values
  import opened Normalizer
  import opened ApiKey

  /** What a step raises: an `HTTPException` the code builds itself, or a
      Python error whose `str()` is `message`. */
  datatype Failure =
    | Http(status: int, detail: string)
    | PyError(kind: string, message: string)

  const NoVideo := Http(400, "Either provide a video file or video URL/path")
  const BadVadScore := Http(400, "VAD score must contain exactly 3 values [valence, arousal, dominance]")
  const KeyNotFound := Http(500, "Server configuration error: GROQ_API_KEY not found")
  const KeyInvalid := Http(500, "Invalid server configuration")
  const ServiceFailed := Http(503, "Failed to get recommendations from the AI service")
  const UnexpectedFormat := PyError("ValueError", "Unexpected response format from Gradio API")
  /** What evaluating the `requests.exceptions.RequestException` clause raises,
      since app.py never imports `requests`. */
  const RequestsUndefined := PyError("NameError", "name 'requests' is not defined")
  /** What `JSONResponse` raises for content holding a NaN or an infinity. */
  const NotCompliant := PyError("ValueError", "Out of range float values are not JSON compliant")

  const VideoPrefix := "Error processing video: "
  const DirectPrefix := "Error processing input: "
  const InternalPrefix := "An internal server error occurred: "

  const EmptyDict := JObj([])

  // ---------------------------------------------------------------- endpoints' input

  /** The optional JSON body of `/api/process_video`. */
  datatype VideoInput = VideoInput(videoUrl: Option<string>, videoPath: Option<string>)

  /** Where the video comes from: the uploaded file, or a URL or path. */
  datatype Source = Upload | Location(place: string)

  /** A Python truthiness test on an optional string. */
  predicate Given(s: Option<string>) {
    s.Some? && s.value != ""
  }

  /** `process_video_endpoint`'s choice of video: an upload wins; otherwise a
      non-empty URL, else a non-empty path, which must be a valid URL or an
      existing file; with neither, 400. `usable` is that test, or the text
      of the `OSError` that `Path.exists` raised on it. */
  function SelectSource(hasFile: bool, input: Option<VideoInput>, usable: string -> Result<bool, string>): (r: Result<Source, Failure>)
    ensures hasFile ==> r == Success(Upload)
    ensures !hasFile && (input.None? || (!Given(input.value.videoUrl) && !Given(input.value.videoPath)))
            ==> r == Failure(NoVideo)
    ensures r.Success? && r.value.Location? ==>
              && usable(r.value.place) == Success(true)
              && input.Some?
              && (if Given(input.value.videoUrl) then Some(r.value.place) == input.value.videoUrl
                  else Some(r.value.place) == input.value.videoPath)
    ensures !hasFile && input.Some? && (Given(input.value.videoUrl) || Given(input.value.videoPath)) ==>
              var place := if Given(input.value.videoUrl) then input.value.videoUrl.value else input.value.videoPath.value;
              && (usable(place) == Success(true) ==> r == Success(Location(place)))
              && (usable(place) == Success(false) ==> r == Failure(Http(400, "Invalid video URL or file not found: " + place)))
              && (usable(place).Failure? ==> r == Failure(PyError("OSError", usable(place).error)))
    ensures r.Failure? && r.error.Http? ==> r.error.status == 400
    ensures r.Failure? && r.error.PyError? ==> r.error.kind == "OSError"
  {
    if hasFile then Success(Upload)
    else if input.Some? && (Given(input.value.videoUrl) || Given(input.value.videoPath)) then
      var place := if Given(input.value.videoUrl) then input.value.videoUrl.value else input.value.videoPath.value;
      match usable(place)
      case Failure(message) => Failure(PyError("OSError", message))
      case Success(false) => Failure(Http(400, "Invalid video URL or file not found: " + place))
      case Success(true) => Success(Location(place))
    else Failure(NoVideo)
  }

  /** The `analysis_data` dict both endpoints build. */
  function AnalysisData(vad: Json, context: Json): Dict {
    [("vad_score", vad), ("contextual_data", context)]
  }

  /** The Gradio answer's fields with their `get` defaults. */
  function GradioVad(gradio: Dict): Json { Get(gradio, "vad_score").GetOr(ZeroVad) }
  function GradioContext(gradio: Dict): Json { Get(gradio, "contextual_data").GetOr(EmptyDict) }

  /** `process_video`: the Gradio result must be a dict; a `vad_score` that is
      absent, not a list or not of length 3 becomes `[0, 0, 0]`, and a
      `contextual_data` that is absent or not a dict becomes `{}`. */
  function VideoAnalysis(gradio: Json): (r: Result<Dict, Failure>)
    ensures r.Failure? <==> !gradio.JObj?
    ensures r.Failure? ==> r.error == UnexpectedFormat
    ensures r.Success? ==>
              && Get(r.value, "vad_score").Some? && Get(r.value, "contextual_data").Some?
              && var vad := Get(r.value, "vad_score").value;
                 var given := GradioVad(gradio.pairs);
                 && vad.JArr? && |vad.items| == 3
                 && (given.JArr? && |given.items| == 3 ==> vad == given)
                 && (!(given.JArr? && |given.items| == 3) ==> vad == ZeroVad)
    ensures r.Success? ==>
              && var context := Get(r.value, "contextual_data").value;
                 && context.JObj?
                 && (GradioContext(gradio.pairs).JObj? ==> context == GradioContext(gradio.pairs))
                 && (!GradioContext(gradio.pairs).JObj? ==> context == EmptyDict)
  {
    if !gradio.JObj? then Failure(UnexpectedFormat)
    else
      var vad := GradioVad(gradio.pairs);
      var vad := if !vad.JArr? || |vad.items| != 3 then ZeroVad else vad;
      var context := GradioContext(gradio.pairs);
      var context := if !context.JObj? then EmptyDict else context;
      GetTwo("vad_score", vad, "contextual_data", context, "vad_score");
      GetTwo("vad_score", vad, "contextual_data", context, "contextual_data");
      Success(AnalysisData(vad, context))
  }

  /** The request body `/api/process_direct` accepts; the request model
      enforces these types before the handler runs. */
  datatype DirectRequest = DirectRequest(audioEmotion: string, videoEmotion: string, vadScore: seq<Json>, contextualData: Dict)

  /** `process_direct`: an empty VAD score or one whose length is not 3 is
      rejected with 400; otherwise the score and the context pass through. */
  function DirectAnalysis(req: DirectRequest): (r: Result<Dict, Failure>)
    ensures r.Failure? <==> |req.vadScore| != 3
    ensures r.Failure? ==> r.error == BadVadScore
    ensures r.Success? ==> Get(r.value, "vad_score") == Some(JArr(req.vadScore))
    ensures r.Success? ==> Get(r.value, "contextual_data") == Some(JObj(req.contextualData))
  {
    if |req.vadScore| == 0 || |req.vadScore| != 3 then Failure(BadVadScore)
    else
      GetTwo("vad_score", JArr(req.vadScore), "contextual_data", JObj(req.contextualData), "vad_score");
      GetTwo("vad_score", JArr(req.vadScore), "contextual_data", JObj(req.contextualData), "contextual_data");
      Success(AnalysisData(JArr(req.vadScore), JObj(req.contextualData)))
  }

  // ---------------------------------------------------------------- get_food_recommendations

  /** `len(vad_score) != 3` replaces the score with `[0, 0, 0]`; `len` raises
      on a value that has no length. */
  function FillVad(vad: Json): (r: Result<Json, Failure>)
    ensures r.Failure? <==> PyLen(vad).None?
    ensures r.Failure? ==> r.error.PyError? && r.error.kind == "TypeError"
    ensures r.Success? ==> PyLen(r.value) == Some(3)
    ensures r.Success? && PyLen(vad) == Some(3) ==> r.value == vad
    ensures r.Success? && PyLen(vad) != Some(3) ==> r.value == ZeroVad
  {
    match PyLen(vad)
    case None => Failure(PyError("TypeError", "object of type '" + TypeName(vad) + "' has no len()"))
    case Some(n) => Success(if n != 3 then ZeroVad else vad)
  }

  /** Zero-filling is idempotent. */
  lemma FillVadIdempotent(vad: Json)
    requires FillVad(vad).Success?
    ensures FillVad(FillVad(vad).value) == FillVad(vad)
  {
  }

  /** The intent rule: a list is kept, any other value `x` becomes `[x]` when
      truthy and `[]` when falsy. */
  function CoerceIntent(x: Json): (r: Json)
    ensures r.JArr?
    ensures x.JArr? ==> r == x
    ensures !x.JArr? ==> (r.items == [x] <==> Truthy(x)) && (r.items == [] <==> !Truthy(x))
  {
    if x.JArr? then x else if Truthy(x) then JArr([x]) else JArr([])
  }

  /** Coercing an intent twice changes nothing more. */
  lemma CoerceIntentIdempotent(x: Json)
    ensures CoerceIntent(CoerceIntent(x)) == CoerceIntent(x)
  {
  }

  /** The input triple `[vad_score, intent, contextual_data]` sent to the
      service; `contextual_data.get` raises when the context is not a dict. */
  function PrepareInput(analysis: Dict): (r: Result<Json, Failure>)
    ensures r.Success? ==> r.value.JArr? && |r.value.items| == 3
    ensures r.Failure? ==> r.error.PyError?
  {
    var vad :- FillVad(Get(analysis, "vad_score").GetOr(ZeroVad));
    var context := Get(analysis, "contextual_data").GetOr(EmptyDict);
    if !context.JObj? then
      Failure(PyError("AttributeError", "'" + TypeName(context) + "' object has no attribute 'get'"))
    else
      var intent := CoerceIntent(Get(context.pairs, "intent").GetOr(JArr([])));
      Success(JArr([vad, intent, context]))
  }

  /** What each slot of the prepared triple holds, stated against the analysis. */
  lemma PrepareInputSpec(analysis: Dict)
    requires PrepareInput(analysis).Success?
    ensures var t := PrepareInput(analysis).value.items;
            var vad := Get(analysis, "vad_score").GetOr(ZeroVad);
            var context := Get(analysis, "contextual_data").GetOr(EmptyDict);
            && PyLen(t[0]) == Some(3)
            && (PyLen(vad) == Some(3) ==> t[0] == vad)
            && (PyLen(vad) != Some(3) ==> t[0] == ZeroVad)
            && t[2] == context && context.JObj?
            && t[1] == CoerceIntent(Get(context.pairs, "intent").GetOr(JArr([])))
  {
  }

  /** The pairs of the JSON object the service answers, in text order; None
      when the call or `json.loads` raised, or when the answer is not an
      object, whose missing `items()` raises inside the same `try`. */
  function Answer(service: Json -> Option<Json>, input: Json): Option<Dict> {
    match service(input)
    case Some(JObj(pairs)) => Some(pairs)
    case _ => None
  }

  /** The guarded body of `get_food_recommendations`, before its outer
      `except` ladder: prepare the input, check the key, call the service,
      parse and normalise its answer. Every failure of the call, the parse or
      the normaliser gives 503. */
  function Attempt(v: Version, analysis: Dict, key: Option<string>, service: Json -> Option<Json>): (r: Result<Recommendation, Failure>)
    ensures PrepareInput(analysis).Failure? ==> r == Failure(PrepareInput(analysis).error)
    ensures PrepareInput(analysis).Success? && CheckKey(key) == Missing ==> r == Failure(KeyNotFound)
    ensures PrepareInput(analysis).Success? && CheckKey(key) == TooShort ==> r == Failure(KeyInvalid)
    ensures r.Success? <==>
              PrepareInput(analysis).Success? && CheckKey(key) == Accepted && Answer(service, PrepareInput(analysis).value).Some?
    ensures r.Success? ==> r.value == Normalize(v, Loads(Answer(service, PrepareInput(analysis).value).value))
    ensures PrepareInput(analysis).Success? && CheckKey(key) == Accepted && r.Failure? ==> r == Failure(ServiceFailed)
  {
    var input :- PrepareInput(analysis);
    match CheckKey(key)
    case Missing => Failure(KeyNotFound)
    case TooShort => Failure(KeyInvalid)
    case Accepted =>
      match Answer(service, input)
      case Some(answer) => Success(Normalize(v, Loads(answer)))
      case None => Failure(ServiceFailed)
  }

  /** The outer `except` ladder as evidently intended. This takes two
      changes to the code: importing `requests`, and re-raising an
      `HTTPException` before the generic `except Exception`, as both
      endpoints do. With the import alone, the generic clause would still
      turn the 503 and the key checks' 500s into a 500 "An internal server
      error occurred: ...". So an `HTTPException` reaches the caller
      unchanged, and any other error becomes a 500. */
  function Ladder(f: Failure): (g: Failure)
    ensures g.Http?
    ensures f.Http? ==> g == f
    ensures f.PyError? ==> g.status == 500 && g.detail == InternalPrefix + f.message
  {
    match f
    case Http(_, _) => f
    case PyError(_, message) => Http(500, InternalPrefix + message)
  }

  function MapFailure(r: Result<Recommendation, Failure>, ladder: Failure -> Failure): Result<Recommendation, Failure> {
    match r
    case Success(v) => Success(v)
    case Failure(f) => Failure(ladder(f))
  }

  /** `get_food_recommendations` as evidently intended: the corrected
      normaliser and the corrected ladder. */
  function Recommend(analysis: Dict, key: Option<string>, service: Json -> Option<Json>): (r: Result<Recommendation, Failure>)
    ensures r.Success? <==> Attempt(Intended, analysis, key, service).Success?
    ensures r.Success? ==> r.value == Attempt(Intended, analysis, key, service).value
    ensures r.Failure? ==> r.error.Http?
    ensures r.Failure? && Attempt(Intended, analysis, key, service).error.Http? ==> r.error == Attempt(Intended, analysis, key, service).error
    ensures r.Failure? && Attempt(Intended, analysis, key, service).error.PyError?
            ==> r.error == Http(500, InternalPrefix + Attempt(Intended, analysis, key, service).error.message)
  {
    MapFailure(Attempt(Intended, analysis, key, service), Ladder)
  }

  /** `get_food_recommendations` as written: the normaliser as the code has
      it, and its outer ladder, whose `requests...` clause is evaluated for
      every exception that is not a `JSONDecodeError`, which is all of them,
      and raises `NameError` in place of the exception being handled. */
  function RecommendAsWritten(analysis: Dict, key: Option<string>, service: Json -> Option<Json>): (r: Result<Recommendation, Failure>)
    ensures r.Success? <==> Attempt(AsWritten, analysis, key, service).Success?
    ensures r.Success? ==> r.value == Attempt(AsWritten, analysis, key, service).value
    ensures r.Failure? ==> r.error == RequestsUndefined
  {
    MapFailure(Attempt(AsWritten, analysis, key, service), _ => RequestsUndefined)
  }

  /** An endpoint's own `except`: `HTTPException` re-raised, anything else a
      500 whose detail is `prefix` followed by the error's text. */
  function Surface(prefix: string, f: Failure): (g: Failure)
    ensures g.Http?
    ensures f.Http? ==> g == f
    ensures f.PyError? ==> g == Http(500, prefix + f.message)
  {
    match f
    case Http(_, _) => f
    case PyError(_, message) => Http(500, prefix + message)
  }

  /** The success body of both endpoints. */
  function Envelope(rec: Recommendation, metadata: Dict): Json {
    JObj([("status", JStr("success")), ("data", ResponseJson(rec, true)), ("metadata", JObj(metadata))])
  }

  /** Whether a recommendation can be sent: none of its fields holds a NaN
      or an infinity. */
  predicate Renders(rec: Recommendation) {
    Finite(rec.emotion) && Finite(rec.topProducts) && Finite(rec.topCombos)
  }

  /** `JSONResponse(content=body)`: Starlette serialises the content with
      `allow_nan=False` when the response is built, inside the endpoint's
      `try`. */
  function Render(body: Json): (r: Result<Json, Failure>)
    ensures r.Success? <==> Finite(body)
    ensures r.Success? ==> r.value == body
    ensures r.Failure? ==> r.error == NotCompliant
  {
    if Finite(body) then Success(body) else Failure(NotCompliant)
  }

  const VideoMetadata: Dict := [("source", JStr("Gradio API processed")), ("model_used", JStr("nishantrajpoot/must_duplicate"))]
  const DirectMetadata: Dict := [("source", JStr("Direct input processed"))]

  /** An envelope renders exactly when its recommendation does: the status
      and the metadata are strings. */
  lemma EnvelopeRenders(rec: Recommendation)
    ensures Finite(Envelope(rec, VideoMetadata)) <==> Renders(rec)
    ensures Finite(Envelope(rec, DirectMetadata)) <==> Renders(rec)
  {
    var data := ResponseJson(rec, true);
    assert Finite(data) <==> Renders(rec) by {
      assert data.pairs[1].1 == rec.emotion;
      assert data.pairs[2].1 == rec.topProducts;
      assert data.pairs[3].1 == rec.topCombos;
    }
    assert Envelope(rec, VideoMetadata).pairs[1].1 == data;
    assert Envelope(rec, DirectMetadata).pairs[1].1 == data;
  }

  /** `get_food_recommendations` in either version. */
  function RecommendVia(v: Version, analysis: Dict, key: Option<string>, service: Json -> Option<Json>): Result<Recommendation, Failure> {
    match v
    case Intended => Recommend(analysis, key, service)
    case AsWritten => RecommendAsWritten(analysis, key, service)
  }

  /** `/api/process_video`. The Gradio client maps a source to its answer or
      to the text of the error it raised. */
  function ProcessVideo(v: Version, hasFile: bool, input: Option<VideoInput>, usable: string -> Result<bool, string>,
                        gradio: Source -> Result<Json, string>, key: Option<string>,
                        service: Json -> Option<Json>): (r: Result<Json, Failure>)
    ensures r.Failure? ==> r.error.Http?
    ensures SelectSource(hasFile, input, usable).Failure?
            ==> r == Failure(Surface(VideoPrefix, SelectSource(hasFile, input, usable).error))
    ensures var s := SelectSource(hasFile, input, usable);
            s.Success? && gradio(s.value).Failure? ==> r == Failure(Http(500, VideoPrefix + gradio(s.value).error))
    ensures var s := SelectSource(hasFile, input, usable);
            s.Success? && gradio(s.value).Success? && !gradio(s.value).value.JObj?
            ==> r == Failure(Http(500, VideoPrefix + UnexpectedFormat.message))
    ensures r.Success? <==>
              && var s := SelectSource(hasFile, input, usable);
                 && s.Success? && gradio(s.value).Success? && gradio(s.value).value.JObj?
                 && var rec := RecommendVia(v, VideoAnalysis(gradio(s.value).value).value, key, service);
                    rec.Success? && Renders(rec.value)
    ensures var s := SelectSource(hasFile, input, usable);
            s.Success? && gradio(s.value).Success? && gradio(s.value).value.JObj? ==>
              var rec := RecommendVia(v, VideoAnalysis(gradio(s.value).value).value, key, service);
              && (rec.Failure? ==> r == Failure(Surface(VideoPrefix, rec.error)))
              && (rec.Success? && !Renders(rec.value) ==> r == Failure(Http(500, VideoPrefix + NotCompliant.message)))
    ensures r.Success? ==>
              && var g := gradio(SelectSource(hasFile, input, usable).value).value;
                 var rec := RecommendVia(v, VideoAnalysis(g).value, key, service).value;
                 r.value == JObj([("status", JStr("success")), ("data", ResponseJson(rec, true)), ("metadata", JObj(VideoMetadata))])
  {
    match SelectSource(hasFile, input, usable)
    case Failure(f) => Failure(Surface(VideoPrefix, f))
    case Success(source) =>
      match gradio(source)
      case Failure(message) => Failure(Http(500, VideoPrefix + message))
      case Success(answer) =>
        match VideoAnalysis(answer)
        case Failure(f) => Failure(Surface(VideoPrefix, f))
        case Success(analysis) =>
          match RecommendVia(v, analysis, key, service)
          case Failure(f) => Failure(Surface(VideoPrefix, f))
          case Success(rec) =>
            EnvelopeRenders(rec);
            match Render(Envelope(rec, VideoMetadata))
            case Failure(f) => Failure(Surface(VideoPrefix, f))
            case Success(body) => Success(body)
  }

  /** `/api/process_direct`. */
  function ProcessDirect(v: Version, req: DirectRequest, key: Option<string>,
                         service: Json -> Option<Json>): (r: Result<Json, Failure>)
    ensures r.Failure? ==> r.error.Http?
    ensures |req.vadScore| != 3 ==> r == Failure(BadVadScore)
    ensures r.Success? <==>
              && |req.vadScore| == 3
              && var rec := RecommendVia(v, DirectAnalysis(req).value, key, service);
                 rec.Success? && Renders(rec.value)
    ensures |req.vadScore| == 3 ==>
              var rec := RecommendVia(v, DirectAnalysis(req).value, key, service);
              && (rec.Failure? ==> r == Failure(Surface(DirectPrefix, rec.error)))
              && (rec.Success? && !Renders(rec.value) ==> r == Failure(Http(500, DirectPrefix + NotCompliant.message)))
    ensures r.Success? ==>
              var rec := RecommendVia(v, DirectAnalysis(req).value, key, service).value;
              r.value == JObj([("status", JStr("success")), ("data", ResponseJson(rec, true)), ("metadata", JObj(DirectMetadata))])
  {
    var analysis :- DirectAnalysis(req);
    match RecommendVia(v, analysis, key, service)
    case Failure(f) => Failure(Surface(DirectPrefix, f))
    case Success(rec) =>
      EnvelopeRenders(rec);
      match Render(Envelope(rec, DirectMetadata))
      case Failure(f) => Failure(Surface(DirectPrefix, f))
      case Success(body) => Success(body)
  }

  // ---------------------------------------------------------------- properties

  /** What `process_video` hands on never trips `get_food_recommendations`'
      own checks: the input is prepared, with the same VAD score. */
  lemma VideoAnalysisPrepares(gradio: Json)
    requires gradio.JObj?
    ensures PrepareInput(VideoAnalysis(gradio).value).Success?
    ensures PrepareInput(VideoAnalysis(gradio).value).value.items[0]
            == Get(VideoAnalysis(gradio).value, "vad_score").value
  {
  }

  /** The triple a well-formed direct request sends upstream. */
  function DirectTriple(req: DirectRequest): Json {
    JArr([JArr(req.vadScore), CoerceIntent(Get(req.contextualData, "intent").GetOr(JArr([]))), JObj(req.contextualData)])
  }

  /** Likewise for `process_direct`: the 3-element score reaches the
      service untouched, next to the coerced intent and the context. */
  lemma DirectAnalysisPrepares(req: DirectRequest)
    requires |req.vadScore| == 3
    ensures PrepareInput(DirectAnalysis(req).value) == Success(DirectTriple(req))
  {
  }

  /** A direct request succeeds exactly when its score has 3 values, the key
      is accepted, the service answers an object and the normalised answer
      holds no NaN or infinity; the reply's `data` is that answer, parsed and
      normalised. */
  lemma DirectSucceeds(v: Version, req: DirectRequest, key: Option<string>, service: Json -> Option<Json>)
    ensures ProcessDirect(v, req, key, service).Success? <==>
              && |req.vadScore| == 3 && CheckKey(key) == Accepted && Answer(service, DirectTriple(req)).Some?
              && Renders(Normalize(v, Loads(Answer(service, DirectTriple(req)).value)))
    ensures ProcessDirect(v, req, key, service).Success? ==>
              ProcessDirect(v, req, key, service).value.pairs[1]
              == ("data", ResponseJson(Normalize(v, Loads(Answer(service, DirectTriple(req)).value)), true))
  {
    if |req.vadScore| == 3 {
      DirectAnalysisPrepares(req);
    }
  }

  /** A bad VAD score is rejected before the service is consulted: the reply
      is the same whatever the key and whatever the service would answer. */
  lemma DirectRejectsBeforeService(v: Version, req: DirectRequest, key1: Option<string>, key2: Option<string>,
                                   service1: Json -> Option<Json>, service2: Json -> Option<Json>)
    requires |req.vadScore| != 3
    ensures ProcessDirect(v, req, key1, service1) == ProcessDirect(v, req, key2, service2)
  {
  }

  /** A failed key check is decided before the service is consulted. */
  lemma KeyCheckedBeforeService(analysis: Dict, key: Option<string>,
                                service1: Json -> Option<Json>, service2: Json -> Option<Json>)
    requires CheckKey(key) != Accepted
    ensures Recommend(analysis, key, service1) == Recommend(analysis, key, service2)
  {
  }

  /** As intended, a well-formed direct request with a missing key is
      answered with the configuration error, and a failing service with 503. */
  lemma DirectIntendedErrors(req: DirectRequest, key: Option<string>, service: Json -> Option<Json>)
    requires |req.vadScore| == 3
    ensures CheckKey(key) == Missing ==> ProcessDirect(Intended, req, key, service) == Failure(KeyNotFound)
    ensures CheckKey(key) == TooShort ==> ProcessDirect(Intended, req, key, service) == Failure(KeyInvalid)
    ensures CheckKey(key) == Accepted && Answer(service, DirectTriple(req)).None?
            ==> ProcessDirect(Intended, req, key, service) == Failure(ServiceFailed)
  {
    DirectAnalysisPrepares(req);
  }

  /** As written, every one of those errors reaches the caller as the same
      500 about `requests`; the only other failure of a well-formed request
      is the one `JSONResponse` raises. */
  lemma DirectAsWrittenMasksErrors(req: DirectRequest, key: Option<string>, service: Json -> Option<Json>)
    requires |req.vadScore| == 3
    ensures CheckKey(key) != Accepted || Answer(service, DirectTriple(req)).None? ==>
              ProcessDirect(AsWritten, req, key, service) == Failure(Http(500, DirectPrefix + RequestsUndefined.message))
    ensures ProcessDirect(AsWritten, req, key, service).Failure? ==>
              ProcessDirect(AsWritten, req, key, service)
              in {Failure(Http(500, DirectPrefix + RequestsUndefined.message)), Failure(Http(500, DirectPrefix + NotCompliant.message))}
  {
    DirectAnalysisPrepares(req);
  }

  /** An answer whose emotion is NaN is parsed and normalised, but the reply
      cannot be rendered, so the request fails with a 500. */
  lemma NanEmotionFails(v: Version, req: DirectRequest, key: Option<string>)
    requires |req.vadScore| == 3 && CheckKey(key) == Accepted
    ensures ProcessDirect(v, req, key, _ => Some(JObj([(EmotionKey, JFloat("nan"))])))
            == Failure(Http(500, DirectPrefix + NotCompliant.message))
  {
    var raw := [(EmotionKey, JFloat("nan"))];
    LoadsUnique(raw);
    OutputKeysCanonical();
    LastWithSpec(raw, EmotionKey);
    NormalizeEmotion(v, raw);
    DirectSucceeds(v, req, key, _ => Some(JObj(raw)));
    DirectAnalysisPrepares(req);
  }

  /** Both versions render the same answers: they differ only in the text
      of a string emotion. */
  lemma VersionsRenderAlike(raw: Dict)
    ensures Renders(Normalize(AsWritten, raw)) <==> Renders(Normalize(Intended, raw))
  {
    NormalizeEmotion(AsWritten, raw);
    NormalizeEmotion(Intended, raw);
    NormalizeLists(AsWritten, raw);
    NormalizeLists(Intended, raw);
  }

  /** The video endpoint's half of the same contrast: once the video is
      analysed, a rejected key reaches the caller as its own error as
      intended, and as the 500 about `requests` as written. */
  lemma VideoKeyErrors(hasFile: bool, input: Option<VideoInput>, usable: string -> Result<bool, string>,
                       gradio: Source -> Result<Json, string>, key: Option<string>, service: Json -> Option<Json>)
    requires SelectSource(hasFile, input, usable).Success?
    requires gradio(SelectSource(hasFile, input, usable).value).Success?
    requires gradio(SelectSource(hasFile, input, usable).value).value.JObj?
    requires CheckKey(key) != Accepted
    ensures ProcessVideo(Intended, hasFile, input, usable, gradio, key, service)
            == Failure(if CheckKey(key) == Missing then KeyNotFound else KeyInvalid)
    ensures ProcessVideo(AsWritten, hasFile, input, usable, gradio, key, service)
            == Failure(Http(500, VideoPrefix + RequestsUndefined.message))
  {
    VideoAnalysisPrepares(gradio(SelectSource(hasFile, input, usable).value).value);
  }

  /** The two versions succeed on the same direct requests, and give the
      same reply unless the answer's list-valued emotion has a blank word
      at either end. */
  lemma VersionsAgreeOnSuccess(req: DirectRequest, key: Option<string>, service: Json -> Option<Json>)
    ensures ProcessDirect(AsWritten, req, key, service).Success? <==> ProcessDirect(Intended, req, key, service).Success?
    ensures var a := Answer(service, DirectTriple(req));
            ProcessDirect(Intended, req, key, service).Success? && a.Some? && NoBlankEnds(LastWith(Loads(a.value), EmotionKey))
            ==> ProcessDirect(AsWritten, req, key, service) == ProcessDirect(Intended, req, key, service)
  {
    DirectSucceeds(AsWritten, req, key, service);
    DirectSucceeds(Intended, req, key, service);
    var a := Answer(service, DirectTriple(req));
    if a.Some? {
      VersionsRenderAlike(Loads(a.value));
    }
    if ProcessDirect(Intended, req, key, service).Success? && a.Some? && NoBlankEnds(LastWith(Loads(a.value), EmotionKey)) {
      DirectAnalysisPrepares(req);
      AsWrittenAgreesWithoutBlankEnds(Loads(a.value));
    }
  }
}

=== FILE: food_recommendations.dfy ===
/**
 * The Flask service in food_recommendations.py: `/recommend` validates a
 * request body of three fields, checks the API key, asks the
 * chat-completion service and normalises its answer into a JSON reply with
 * an HTTP status. The service is a parameter: a function from the input
 * triple to its parsed answer, or None when the call or the parse raised.
 */
module FoodRecommendations {
  import opened Wrappers
  import opened Text
  import opened Values
  import opened Normalizer
  import opened ApiKey

  /** A Flask reply: an HTTP status and a JSON body. */
  datatype Reply = Reply(status: int, body: Json)

  function ErrorReply(status: int, message: string): Reply {
    Reply(status, JObj([("status", JStr("error")), ("message", JStr(message))]))
  }

  const NoInput := ErrorReply(400, "No input data provided")
  const BadVad := ErrorReply(400, "vad_score must be a list of 3 numbers [valence, arousal, dominance]")
  const BadIntent := ErrorReply(400, "intent_selections must be a list of strings")
  const BadContext := ErrorReply(400, "contextual_data must be a list of 4 elements [time, date, location, weather]")
  /** The missing-key reply also carries empty recommendation fields. */
  const KeyNotFound := Reply(500, JObj([("status", JStr("error")), ("emotion", JStr("")),
                                        ("top_products", JArr([])), ("top_combos", JArr([])),
                                        ("message", JStr("Server configuration error: GROQ_API_KEY not found"))]))
  const KeyInvalid := ErrorReply(500, "Invalid server configuration")
  const ServiceFailed := ErrorReply(503, "Failed to get recommendations from the AI service")
  const Internal := ErrorReply(500, "An internal server error occurred")

  /** `str(KeyError(name))` puts the missing key in single quotes; none of
      the three field names holds a character `repr` would escape. */
  function MissingField(name: string): Reply {
    ErrorReply(400, "Missing required field: '" + name + "'")
  }

  /** `all(isinstance(x, (int, float)) for x in xs)`. */
  function AllNumbers(xs: seq<Json>): (b: bool)
    ensures b <==> forall i :: 0 <= i < |xs| ==> IsNumber(xs[i])
  {
    if xs == [] then true
    else
      assert forall i :: 0 < i < |xs| ==> xs[i] == xs[1..][i - 1];
      IsNumber(xs[0]) && AllNumbers(xs[1..])
  }

  /** `all(isinstance(x, str) for x in xs)`. */
  function AllStrings(xs: seq<Json>): (b: bool)
    ensures b <==> forall i :: 0 <= i < |xs| ==> xs[i].JStr?
  {
    if xs == [] then true
    else
      assert forall i :: 0 < i < |xs| ==> xs[i] == xs[1..][i - 1];
      xs[0].JStr? && AllStrings(xs[1..])
  }

  /** The accepted shapes of the three fields. */
  predicate VadShape(v: Json) {
    v.JArr? && |v.items| == 3 && forall i :: 0 <= i < 3 ==> IsNumber(v.items[i])
  }
  predicate IntentShape(v: Json) {
    v.JArr? && forall i :: 0 <= i < |v.items| ==> v.items[i].JStr?
  }
  predicate ContextShape(v: Json) {
    v.JArr? && |v.items| == 4
  }

  /** `data[name]`, a `KeyError` answered with 400. */
  function Require(d: Dict, name: string): (r: Result<Json, Reply>)
    ensures r.Success? <==> Get(d, name).Some?
    ensures r.Success? ==> Some(r.value) == Get(d, name)
    ensures r.Failure? ==> r.error == MissingField(name)
  {
    match Get(d, name)
    case Some(v) => Success(v)
    case None => Failure(MissingField(name))
  }

  /** The three `data[...]` reads, in source order: the first missing key
      decides the reply. */
  function RequiredFields(d: Dict): (r: Result<(Json, Json, Json), Reply>)
    ensures Get(d, "vad_score").None? ==> r == Failure(MissingField("vad_score"))
    ensures Get(d, "vad_score").Some? && Get(d, "intent_selections").None?
            ==> r == Failure(MissingField("intent_selections"))
    ensures Get(d, "vad_score").Some? && Get(d, "intent_selections").Some? && Get(d, "contextual_data").None?
            ==> r == Failure(MissingField("contextual_data"))
    ensures r.Success? <==> Get(d, "vad_score").Some? && Get(d, "intent_selections").Some? && Get(d, "contextual_data").Some?
    ensures r.Failure? ==> r.error.status == 400
    ensures r.Success? ==>
              r.value == (Get(d, "vad_score").value, Get(d, "intent_selections").value, Get(d, "contextual_data").value)
  {
    var vad :- Require(d, "vad_score");
    var intent :- Require(d, "intent_selections");
    var context :- Require(d, "contextual_data");
    Success((vad, intent, context))
  }

  /** The three shape checks, in source order: the first that fails decides
      the reply; on success the fields form the triple sent upstream. */
  function CheckShapes(vad: Json, intent: Json, context: Json): (r: Result<Json, Reply>)
    ensures !VadShape(vad) ==> r == Failure(BadVad)
    ensures VadShape(vad) && !IntentShape(intent) ==> r == Failure(BadIntent)
    ensures VadShape(vad) && IntentShape(intent) && !ContextShape(context) ==> r == Failure(BadContext)
    ensures r.Success? <==> VadShape(vad) && IntentShape(intent) && ContextShape(context)
    ensures r.Failure? ==> r.error.status == 400
    ensures r.Success? ==> r.value == JArr([vad, intent, context])
  {
    if !vad.JArr? || !AllNumbers(vad.items) || |vad.items| != 3 then Failure(BadVad)
    else if !intent.JArr? || !AllStrings(intent.items) then Failure(BadIntent)
    else if !context.JArr? || |context.items| != 4 then Failure(BadContext)
    else Success(JArr([vad, intent, context]))
  }

  /** The request validation of `/recommend`, checks in source order: the
      first one that fails decides the reply. A truthy body that is not an
      object fails at `data['vad_score']` with a `TypeError`, which the
      catch-all answers with 500. On success, the three fields in order are
      what the service receives. */
  function Validate(data: Json): (r: Result<Json, Reply>)
    ensures !Truthy(data) ==> r == Failure(NoInput)
    ensures Truthy(data) && !data.JObj? ==> r == Failure(Internal)
    ensures r.Failure? ==> r.error.status == 400 || r.error == Internal
    ensures data.JObj? && Truthy(data) && Get(data.pairs, "vad_score").None?
            ==> r == Failure(MissingField("vad_score"))
    ensures data.JObj? && Get(data.pairs, "vad_score").Some? && Get(data.pairs, "intent_selections").None?
            ==> r == Failure(MissingField("intent_selections"))
    ensures data.JObj? && Get(data.pairs, "vad_score").Some? && Get(data.pairs, "intent_selections").Some?
            && Get(data.pairs, "contextual_data").None?
            ==> r == Failure(MissingField("contextual_data"))
    ensures r.Success? <==>
              && data.JObj? && Get(data.pairs, "vad_score").Some? && Get(data.pairs, "intent_selections").Some?
              && Get(data.pairs, "contextual_data").Some?
              && VadShape(Get(data.pairs, "vad_score").value)
              && IntentShape(Get(data.pairs, "intent_selections").value)
              && ContextShape(Get(data.pairs, "contextual_data").value)
    ensures r.Success? ==>
              r.value == JArr([Get(data.pairs, "vad_score").value, Get(data.pairs, "intent_selections").value,
                               Get(data.pairs, "contextual_data").value])
  {
    if !Truthy(data) then Failure(NoInput)
    else if !data.JObj? then Failure(Internal)
    else
      match RequiredFields(data.pairs)
      case Failure(reply) => Failure(reply)
      case Success((vad, intent, context)) => CheckShapes(vad, intent, context)
  }

  /** Once all three fields are present, the shape checks run in order: VAD
      score, then intents, then context. */
  lemma ShapeChecksInOrder(data: Json)
    requires data.JObj? && Get(data.pairs, "vad_score").Some? && Get(data.pairs, "intent_selections").Some?
             && Get(data.pairs, "contextual_data").Some?
    ensures var vad := Get(data.pairs, "vad_score").value;
            var intent := Get(data.pairs, "intent_selections").value;
            var context := Get(data.pairs, "contextual_data").value;
            && (!VadShape(vad) ==> Validate(data) == Failure(BadVad))
            && (VadShape(vad) && !IntentShape(intent) ==> Validate(data) == Failure(BadIntent))
            && (VadShape(vad) && IntentShape(intent) && !ContextShape(context) ==> Validate(data) == Failure(BadContext))
  {
  }

  /** `/recommend` after validation: key check, service call and parse,
      normalisation. The normalisation runs outside the `try` around the
      call, so an answer that is not an object is answered by the catch-all
      with 500. `v` selects the normaliser as written or as intended. */
  function Recommend(v: Version, data: Json, key: Option<string>, service: Json -> Option<Json>): (r: Reply)
    ensures Validate(data).Failure? ==> r == Validate(data).error
    ensures Validate(data).Success? && CheckKey(key) == Missing ==> r == KeyNotFound
    ensures Validate(data).Success? && CheckKey(key) == TooShort ==> r == KeyInvalid
    ensures Validate(data).Success? && CheckKey(key) == Accepted && service(Validate(data).value).None?
            ==> r == ServiceFailed
    ensures Validate(data).Success? && CheckKey(key) == Accepted && service(Validate(data).value).Some?
            && !service(Validate(data).value).value.JObj?
            ==> r == Internal
    ensures r.status == 200 <==>
              && Validate(data).Success? && CheckKey(key) == Accepted
              && var answer := service(Validate(data).value);
                 answer.Some? && answer.value.JObj?
    ensures r.status == 200 ==> r.body == ResponseJson(Normalize(v, Loads(service(Validate(data).value).value.pairs)), true)
    ensures r.status in {200, 400, 500, 503}
  {
    match Validate(data)
    case Failure(reply) => reply
    case Success(input) =>
      match CheckKey(key)
      case Missing => KeyNotFound
      case TooShort => KeyInvalid
      case Accepted =>
        match service(input)
        case None => ServiceFailed
        case Some(JObj(answer)) => Reply(200, ResponseJson(Normalize(v, Loads(answer)), true))
        case Some(_) => Internal
  }

  /** An invalid request is answered the same whatever the key and whatever
      the service would say: validation comes first. */
  lemma ValidationFirst(v: Version, data: Json, key1: Option<string>, key2: Option<string>,
                        service1: Json -> Option<Json>, service2: Json -> Option<Json>)
    requires Validate(data).Failure?
    ensures Recommend(v, data, key1, service1) == Recommend(v, data, key2, service2)
    ensures Recommend(v, data, key1, service1).status in {400, 500}
  {
  }

  /** A rejected key is answered before the service is consulted. */
  lemma KeyBeforeService(v: Version, data: Json, key: Option<string>,
                         service1: Json -> Option<Json>, service2: Json -> Option<Json>)
    requires CheckKey(key) != Accepted
    ensures Recommend(v, data, key, service1) == Recommend(v, data, key, service2)
  {
  }

  /** A success body fed back as the service's answer gives the same reply,
      for every answer the version settles: every answer as intended, and as
      written those without a blank word at either end of a list-valued
      emotion. */
  lemma SuccessBodyIsFixedPoint(v: Version, data: Json, key: Option<string>, service: Json -> Option<Json>)
    requires Recommend(v, data, key, service).status == 200
    requires Settles(v, Loads(service(Validate(data).value).value.pairs))
    ensures var body := Recommend(v, data, key, service).body;
            Recommend(v, data, key, _ => Some(body)) == Recommend(v, data, key, service)
  {
    var raw := Loads(service(Validate(data).value).value.pairs);
    NormalizeFixedPoint(v, raw, true);
  }

  /** A success body always has the five keys of the reply, each once, and
      its emotion is never a list. */
  lemma SuccessBodyShape(v: Version, data: Json, key: Option<string>, service: Json -> Option<Json>)
    requires Recommend(v, data, key, service).status == 200
    ensures var body := Recommend(v, data, key, service).body;
            && body.JObj? && UniqueKeys(body.pairs)
            && Get(body.pairs, "status") == Some(JStr("success"))
            && Get(body.pairs, "message") == Some(JStr(SuccessMessage))
            && Get(body.pairs, EmotionKey).Some? && Get(body.pairs, ProductsKey).Some? && Get(body.pairs, CombosKey).Some?
            && !Get(body.pairs, EmotionKey).value.JArr?
  {
    var raw := Loads(service(Validate(data).value).value.pairs);
    var rec := Normalize(v, raw);
    var d := ResponseJson(rec, true).pairs;
    assert Recommend(v, data, key, service).body == JObj(d);
    ResponseDict(rec, true);
    GetUnique(d, 0);
    GetUnique(d, 4);
    NormalizeSpec(v, raw);
  }
}

=== FILE: normalizer.dfy ===
/**
 * The recommendation-response normaliser that all three services apply to
 * the dict `json.loads` builds from the chat-completion answer: canonicalise
 * the keys, coerce `emotion` to a string, and assemble a fixed-shape record.
 */
module Normalizer {
  import opened Wrappers
  import opened Text
  import opened Values

  const EmotionKey := "emotion"
  const ProductsKey := "top_products"
  const CombosKey := "top_combos"
  const SuccessMessage := "Recommendations generated successfully"

  /** The normaliser as the three copies write it, or as evidently intended:
      with the joined emotion list stripped as well. */
  datatype Version = Intended | AsWritten

  /** The name a raw key is stored under: three exact lower-case spellings are
      renamed, every other key is kept verbatim. */
  function CanonicalKey(k: string): (r: string)
    ensures r == k || r == EmotionKey || r == ProductsKey || r == CombosKey
  {
    if Lower(k) == "emotion" then EmotionKey
    else if Lower(k) == "top products" then ProductsKey
    else if Lower(k) == "top combos" then CombosKey
    else k
  }

  /** Which raw keys land on each of the three output names. */
  lemma CanonicalKeyTargets(k: string)
    ensures CanonicalKey(k) == EmotionKey <==> Lower(k) == "emotion"
    ensures CanonicalKey(k) == ProductsKey <==> Lower(k) == "top products" || k == ProductsKey
    ensures CanonicalKey(k) == CombosKey <==> Lower(k) == "top combos" || k == CombosKey
    ensures Lower(k) !in {"emotion", "top products", "top combos"} ==> CanonicalKey(k) == k
  {
    if k == EmotionKey {
      assert Lower(k) == "emotion";
    }
  }

  /** The keys the normaliser must leave alone are left alone. */
  lemma CanonicalKeyExamples()
    ensures CanonicalKey("Top Products") == ProductsKey
    ensures CanonicalKey("EMOTION") == EmotionKey
    ensures CanonicalKey("top_products") == ProductsKey
    ensures CanonicalKey("products") == "products"
    ensures CanonicalKey(" Top Products") == " Top Products"
    ensures CanonicalKey("Top_Products") == "Top_Products"
  {
    assert Lower("Top Products") == "top products";
    assert Lower("EMOTION") == "emotion";
    assert Lower("top_products") == "top_products";
    assert Lower("products") == "products";
    assert Lower(" Top Products") == " top products";
    assert Lower("Top_Products") == "top_products";
  }

  /** The value of the last raw pair whose key `f` maps to `c`, if any. */
  function LastBy(raw: Dict, f: string -> string, c: string): Option<Json> {
    if |raw| == 0 then None
    else if f(raw[|raw| - 1].0) == c then Some(raw[|raw| - 1].1)
    else LastBy(raw[..|raw| - 1], f, c)
  }

  lemma {:induction false} LastBySpec(raw: Dict, f: string -> string, c: string)
    ensures LastBy(raw, f, c).None? <==> forall i :: 0 <= i < |raw| ==> f(raw[i].0) != c
    ensures LastBy(raw, f, c).Some? ==>
      exists i :: 0 <= i < |raw| && f(raw[i].0) == c && raw[i].1 == LastBy(raw, f, c).value
                  && forall j :: i < j < |raw| ==> f(raw[j].0) != c
  {
    if |raw| > 0 {
      var init := raw[..|raw| - 1];
      LastBySpec(init, f, c);
      if f(raw[|raw| - 1].0) != c {
        assert forall i :: 0 <= i < |init| ==> init[i] == raw[i];
        if LastBy(init, f, c).Some? {
          var i :| 0 <= i < |init| && f(init[i].0) == c && init[i].1 == LastBy(init, f, c).value
                   && forall j :: i < j < |init| ==> f(init[j].0) != c;
          assert raw[i] == init[i];
        }
      }
    }
  }

  /** Reference meaning of canonicalisation: the value of the last entry of
      the dict, in iteration order, whose key canonicalises to `c`, if any. */
  function LastWith(raw: Dict, c: string): Option<Json> {
    LastBy(raw, CanonicalKey, c)
  }

  lemma LastWithSpec(raw: Dict, c: string)
    ensures LastWith(raw, c).None? <==> forall i :: 0 <= i < |raw| ==> CanonicalKey(raw[i].0) != c
    ensures LastWith(raw, c).Some? ==>
      exists i :: 0 <= i < |raw| && CanonicalKey(raw[i].0) == c && raw[i].1 == LastWith(raw, c).value
                  && forall j :: i < j < |raw| ==> CanonicalKey(raw[j].0) != c
  {
    LastBySpec(raw, CanonicalKey, c);
  }

  /** The loop over `recommendations.items()` that stores each value under its
      canonical key in a fresh dict. `raw` is the dict `json.loads` built, so
      its pairs are in the order `items()` yields them. */
  function Canonicalise(raw: Dict): (r: Dict)
    ensures UniqueKeys(r)
    ensures forall c :: Get(r, c) == LastWith(raw, c)
  {
    if |raw| == 0 then []
    else
      var init := Canonicalise(raw[..|raw| - 1]);
      var k := CanonicalKey(raw[|raw| - 1].0);
      var r := Put(init, k, raw[|raw| - 1].1);
      PutSpec(init, k, raw[|raw| - 1].1);
      assert forall c :: Get(r, c) == LastWith(raw, c) by {
        forall c ensures Get(r, c) == LastWith(raw, c) {
          GetPut(init, k, raw[|raw| - 1].1, c);
        }
      }
      r
  }

  /** A dict whose keys are distinct and already canonical passes through unchanged. */
  lemma {:induction false} CanonicaliseCanonical(d: Dict)
    requires UniqueKeys(d)
    requires forall i :: 0 <= i < |d| ==> CanonicalKey(d[i].0) == d[i].0
    ensures Canonicalise(d) == d
  {
    if |d| > 0 {
      var init := d[..|d| - 1];
      CanonicaliseCanonical(init);
      PutNew(init, d[|d| - 1].0, d[|d| - 1].1);
      assert init + [d[|d| - 1]] == d;
    }
  }

  /** The words of a list-valued emotion: `str(word).strip()` for each element. */
  function Words(xs: seq<Json>): (ws: seq<string>)
    ensures |ws| == |xs|
    ensures forall i :: 0 <= i < |xs| ==> IsStripped(ws[i])
  {
    seq(|xs|, i requires 0 <= i < |xs| => Strip(Str(xs[i])))
  }

  /** A list-valued emotion joined with single spaces. As written the join
      itself is not stripped again; as intended it is. */
  function Joined(v: Version, xs: seq<Json>): (s: string)
    ensures v == Intended ==> IsStripped(s)
  {
    var joined := Join(" ", Words(xs));
    if v == Intended then Strip(joined) else joined
  }

  /** What an `emotion` value (or its absence) turns into: a list is joined,
      a string is stripped, any other value stays, and a missing one reads
      `""`. The result is never a list, and as intended a string result
      carries no outer whitespace. */
  function EmotionBy(v: Version, e: Option<Json>): (r: Json)
    ensures !r.JArr?
    ensures v == Intended && r.JStr? ==> IsStripped(r.s)
    ensures e.Some? && !e.value.JArr? && !e.value.JStr? ==> r == e.value
  {
    match e
    case None => JStr("")
    case Some(JArr(xs)) => JStr(Joined(v, xs))
    case Some(JStr(s)) => JStr(Strip(s))
    case Some(x) => x
  }

  /** The `if "emotion" in normalized_recommendations` block. */
  function CoerceEmotion(v: Version, d: Dict): Dict {
    match Get(d, EmotionKey)
    case Some(JArr(xs)) => Put(d, EmotionKey, JStr(Joined(v, xs)))
    case Some(JStr(s)) => Put(d, EmotionKey, JStr(Strip(s)))
    case _ => d
  }

  /** Coercion keeps keys distinct, leaves an absent emotion absent, and
      replaces a present one by what `EmotionBy` makes of it. */
  lemma CoerceEmotionSpec(v: Version, d: Dict)
    requires UniqueKeys(d)
    ensures UniqueKeys(CoerceEmotion(v, d))
    ensures Get(d, EmotionKey).None? ==> Get(CoerceEmotion(v, d), EmotionKey).None?
    ensures Get(d, EmotionKey).Some? ==> Get(CoerceEmotion(v, d), EmotionKey) == Some(EmotionBy(v, Get(d, EmotionKey)))
  {
    match Get(d, EmotionKey)
    case Some(JArr(xs)) =>
      PutSpec(d, EmotionKey, JStr(Joined(v, xs)));
      GetPut(d, EmotionKey, JStr(Joined(v, xs)), EmotionKey);
    case Some(JStr(s)) =>
      PutSpec(d, EmotionKey, JStr(Strip(s)));
      GetPut(d, EmotionKey, JStr(Strip(s)), EmotionKey);
    case _ =>
  }

  /** Coercion leaves every key other than `emotion` as it was. */
  lemma CoerceEmotionOthers(v: Version, d: Dict)
    requires UniqueKeys(d)
    ensures forall c :: c != EmotionKey ==> Get(CoerceEmotion(v, d), c) == Get(d, c)
  {
    match Get(d, EmotionKey)
    case Some(JArr(xs)) =>
      forall c { GetPut(d, EmotionKey, JStr(Joined(v, xs)), c); }
    case Some(JStr(s)) =>
      forall c { GetPut(d, EmotionKey, JStr(Strip(s)), c); }
    case _ =>
  }

  /** A list of non-empty, already stripped strings is joined word for word;
      the empty list gives "". */
  lemma CoerceEmotionWords(v: Version, d: Dict, xs: seq<Json>, words: seq<string>)
    requires UniqueKeys(d)
    requires Get(d, EmotionKey) == Some(JArr(xs))
    requires |xs| == |words|
    requires forall i :: 0 <= i < |xs| ==> xs[i] == JStr(words[i])
    requires forall i :: 0 <= i < |words| ==> IsStripped(words[i]) && words[i] != ""
    ensures Get(CoerceEmotion(v, d), EmotionKey) == Some(JStr(Join(" ", words)))
    ensures words == [] ==> Get(CoerceEmotion(v, d), EmotionKey) == Some(JStr(""))
  {
    assert Words(xs) == words by {
      forall i | 0 <= i < |words| ensures Words(xs)[i] == words[i] {
        StripFixedIff(words[i]);
      }
    }
    JoinStripped(words);
    StripFixedIff(Join(" ", words));
    GetPut(d, EmotionKey, JStr(Join(" ", words)), EmotionKey);
  }

  /** An emotion value that is not a list of two or more words with a blank
      word at either end. */
  predicate NoBlankEnds(e: Option<Json>) {
    e.Some? && e.value.JArr? && |e.value.items| > 1 ==>
      Words(e.value.items)[0] != "" && Words(e.value.items)[|e.value.items| - 1] != ""
  }

  /** The two joins differ only when a blank word sits at either end of a
      list of two or more words. */
  lemma JoinedAgreeWithoutBlankEnds(xs: seq<Json>)
    requires NoBlankEnds(Some(JArr(xs)))
    ensures Joined(AsWritten, xs) == Joined(Intended, xs)
  {
    JoinStripped(Words(xs));
    StripFixedIff(Join(" ", Words(xs)));
  }

  /** So the two coercions differ only on such an emotion. */
  lemma CoercionsAgreeWithoutBlankEnds(d: Dict)
    requires NoBlankEnds(Get(d, EmotionKey))
    ensures CoerceEmotion(AsWritten, d) == CoerceEmotion(Intended, d)
  {
    match Get(d, EmotionKey)
    case Some(JArr(xs)) =>
      JoinedAgreeWithoutBlankEnds(xs);
    case _ =>
  }

  /** The fixed-shape record every copy returns on success. */
  datatype Recommendation = Recommendation(emotion: Json, topProducts: Json, topCombos: Json)

  /** `normalized.get("emotion", "")` and the two `get(..., [])` calls: a
      present key gives its value, an absent one the default. */
  function Assemble(d: Dict): (r: Recommendation)
    ensures HasKey(d, EmotionKey) ==> Some(r.emotion) == Get(d, EmotionKey)
    ensures !HasKey(d, EmotionKey) ==> r.emotion == JStr("")
    ensures HasKey(d, ProductsKey) ==> Some(r.topProducts) == Get(d, ProductsKey)
    ensures !HasKey(d, ProductsKey) ==> r.topProducts == JArr([])
    ensures HasKey(d, CombosKey) ==> Some(r.topCombos) == Get(d, CombosKey)
    ensures !HasKey(d, CombosKey) ==> r.topCombos == JArr([])
  {
    GetSpec(d, EmotionKey);
    GetSpec(d, ProductsKey);
    GetSpec(d, CombosKey);
    Recommendation(
      Get(d, EmotionKey).GetOr(JStr("")),
      Get(d, ProductsKey).GetOr(JArr([])),
      Get(d, CombosKey).GetOr(JArr([])))
  }

  /** The whole normaliser: canonicalise, coerce `emotion`, assemble. */
  function Normalize(v: Version, raw: Dict): Recommendation {
    Assemble(CoerceEmotion(v, Canonicalise(raw)))
  }

  /** The products and combos are copied unchanged from the last raw key that
      canonicalises to them, or are `[]`. */
  lemma NormalizeLists(v: Version, raw: Dict)
    ensures Normalize(v, raw).topProducts == LastWith(raw, ProductsKey).GetOr(JArr([]))
    ensures Normalize(v, raw).topCombos == LastWith(raw, CombosKey).GetOr(JArr([]))
  {
    var c := Canonicalise(raw);
    CoerceEmotionOthers(v, c);
    GetSpec(CoerceEmotion(v, c), ProductsKey);
    GetSpec(CoerceEmotion(v, c), CombosKey);
  }

  /** The emotion is what `EmotionBy` makes of the last raw key lower-casing
      to "emotion" (or of its absence). */
  lemma NormalizeEmotion(v: Version, raw: Dict)
    ensures Normalize(v, raw).emotion == EmotionBy(v, LastWith(raw, EmotionKey))
  {
    var c := Canonicalise(raw);
    CoerceEmotionSpec(v, c);
    GetSpec(CoerceEmotion(v, c), EmotionKey);
  }

  /** Both halves together: what the normaliser computes, stated against the
      raw pairs. The emotion is never a list, and as intended a string
      emotion is stripped. */
  lemma NormalizeSpec(v: Version, raw: Dict)
    ensures Normalize(v, raw).topProducts == LastWith(raw, ProductsKey).GetOr(JArr([]))
    ensures Normalize(v, raw).topCombos == LastWith(raw, CombosKey).GetOr(JArr([]))
    ensures Normalize(v, raw).emotion == EmotionBy(v, LastWith(raw, EmotionKey))
    ensures !Normalize(v, raw).emotion.JArr?
    ensures v == Intended && Normalize(v, raw).emotion.JStr? ==> IsStripped(Normalize(v, raw).emotion.s)
  {
    NormalizeLists(v, raw);
    NormalizeEmotion(v, raw);
  }

  /** Raw keys that canonicalise to none of the three names have no effect,
      wherever they stand. */
  lemma NormalizeIgnoresOtherKeys(v: Version, before: Dict, k: string, x: Json, after: Dict)
    requires CanonicalKey(k) !in {EmotionKey, ProductsKey, CombosKey}
    ensures Normalize(v, before + [(k, x)] + after) == Normalize(v, before + after)
  {
    var with := before + [(k, x)] + after;
    var without := before + after;
    forall c | c in {EmotionKey, ProductsKey, CombosKey}
      ensures LastWith(with, c) == LastWith(without, c)
    {
      LastWithDrop(before, k, x, after, c);
    }
    NormalizeSpec(v, with);
    NormalizeSpec(v, without);
  }

  lemma {:induction false} LastWithDrop(before: Dict, k: string, x: Json, after: Dict, c: string)
    requires CanonicalKey(k) != c
    ensures LastWith(before + [(k, x)] + after, c) == LastWith(before + after, c)
    decreases |after|
  {
    if |after| == 0 {
      assert before + [(k, x)] + after == before + [(k, x)];
      assert (before + [(k, x)])[..|before|] == before;
      assert before + after == before;
    } else {
      var init := after[..|after| - 1];
      assert (before + [(k, x)] + after)[..|before| + |after|] == before + [(k, x)] + init;
      assert (before + after)[..|before| + |after| - 1] == before + init;
      LastWithDrop(before, k, x, init, c);
    }
  }

  /** A key repeated around another spelling of `emotion`, as `json.loads`
      resolves it: the repeat keeps the first place, so the other spelling,
      which comes later in iteration order, supplies the emotion. */
  lemma RepeatedKeyEmotion(v: Version, a: Json, b: Json, c: Json)
    ensures Normalize(v, Loads([("Emotion", a), ("emotion", b), ("Emotion", c)])).emotion == EmotionBy(v, Some(b))
  {
    LoadsRepeatedKey(a, b, c);
    var d := [("Emotion", c), ("emotion", b)];
    assert CanonicalKey("Emotion") == EmotionKey by { assert Lower("Emotion") == "emotion"; }
    assert CanonicalKey("emotion") == EmotionKey by { assert Lower("emotion") == "emotion"; }
    assert LastWith(d, EmotionKey) == Some(b);
    NormalizeEmotion(v, d);
  }

  /** The response object; `withStatus` selects the copies that emit `status`.
      Its keys are distinct. */
  function ResponseJson(rec: Recommendation, withStatus: bool): (r: Json)
    ensures r.JObj? && UniqueKeys(r.pairs)
    ensures |r.pairs| == if withStatus then 5 else 4
  {
    var fields := [
      (EmotionKey, rec.emotion),
      (ProductsKey, rec.topProducts),
      (CombosKey, rec.topCombos),
      ("message", JStr(SuccessMessage))];
    JObj(if withStatus then [("status", JStr("success"))] + fields else fields)
  }

  lemma ResponseKeysCanonical(rec: Recommendation, withStatus: bool)
    ensures var d := ResponseJson(rec, withStatus).pairs;
            forall i :: 0 <= i < |d| ==> CanonicalKey(d[i].0) == d[i].0
  {
    OutputKeysCanonical();
    StatusKeysCanonical();
  }

  /** The three output names are their own canonical form. */
  lemma OutputKeysCanonical()
    ensures CanonicalKey(EmotionKey) == EmotionKey
    ensures CanonicalKey(ProductsKey) == ProductsKey
    ensures CanonicalKey(CombosKey) == CombosKey
  {
    assert Lower("emotion") == "emotion";
    assert Lower("top_products") == "top_products";
    assert Lower("top_combos") == "top_combos";
  }

  /** So are the envelope's `status` and `message` keys. */
  lemma StatusKeysCanonical()
    ensures CanonicalKey("status") == "status"
    ensures CanonicalKey("message") == "message"
  {
    assert Lower("status") == "status";
    assert Lower("message") == "message";
  }

  /** The response's own keys are already canonical, it parses to itself, and
      each field reads back what it was built from. */
  lemma ResponseDict(rec: Recommendation, withStatus: bool)
    ensures var d := ResponseJson(rec, withStatus).pairs;
            && Loads(d) == d
            && Canonicalise(d) == d
            && Get(d, EmotionKey) == Some(rec.emotion)
            && Get(d, ProductsKey) == Some(rec.topProducts)
            && Get(d, CombosKey) == Some(rec.topCombos)
  {
    var d := ResponseJson(rec, withStatus).pairs;
    LoadsUnique(d);
    ResponseKeysCanonical(rec, withStatus);
    CanonicaliseCanonical(d);
    var o := if withStatus then 1 else 0;
    GetUnique(d, o);
    GetUnique(d, o + 1);
    GetUnique(d, o + 2);
  }

  /** A record whose emotion is not a list, and is stripped when it is a
      string, is a fixed point of rendering, parsing and normalising, in
      either version. */
  lemma RenormalizeRecord(v: Version, rec: Recommendation, withStatus: bool)
    requires !rec.emotion.JArr?
    requires rec.emotion.JStr? ==> IsStripped(rec.emotion.s)
    ensures Normalize(v, Loads(ResponseJson(rec, withStatus).pairs)) == rec
  {
    var d := ResponseJson(rec, withStatus).pairs;
    ResponseDict(rec, withStatus);
    NormalizeSpec(v, d);
    if rec.emotion.JStr? {
      StripFixedIff(rec.emotion.s);
    }
  }

  /** As intended, feeding a response back through the service gives the
      same record. */
  lemma NormalizeIdempotent(raw: Dict, withStatus: bool)
    ensures Normalize(Intended, Loads(ResponseJson(Normalize(Intended, raw), withStatus).pairs)) == Normalize(Intended, raw)
  {
    NormalizeSpec(Intended, raw);
    RenormalizeRecord(Intended, Normalize(Intended, raw), withStatus);
  }

  lemma WordsOfStrings(a: string, b: string)
    requires Strip(a) == a && Strip(b) == b
    ensures Words([JStr(a), JStr(b)]) == [a, b]
  {
    var xs := [JStr(a), JStr(b)];
    var ws := Words(xs);
    StrOfString(a);
    StrOfString(b);
    assert ws[0] == Strip(Str(xs[0])) == a;
    assert ws[1] == Strip(Str(xs[1])) == b;
  }

  /** Two non-blank stripped words become one label with a single space, in
      either version. */
  lemma TwoWordsJoin(v: Version, a: string, b: string)
    requires Strip(a) == a && a != "" && Strip(b) == b && b != ""
    ensures Joined(v, [JStr(a), JStr(b)]) == a + " " + b
  {
    WordsOfStrings(a, b);
    JoinTwo(a, b);
    StripFixedIff(a);
    StripFixedIff(b);
    JoinStripped([a, b]);
    StripFixedIff(a + " " + b);
  }

  lemma TopProductsLastWith(products: Json, emotion: Json)
    ensures var raw := [("Top Products", products), ("emotion", emotion)];
            && LastWith(raw, EmotionKey) == Some(emotion)
            && LastWith(raw, ProductsKey) == Some(products)
            && LastWith(raw, CombosKey) == None
  {
    var raw := [("Top Products", products), ("emotion", emotion)];
    CanonicalKeyExamples();
    assert CanonicalKey("emotion") == EmotionKey by { assert Lower("emotion") == "emotion"; }
    assert raw[..1] == [raw[0]];
    assert [raw[0]][..0] == [];
    assert CanonicalKey("emotion") != CombosKey;
    assert LastBy(raw, CanonicalKey, CombosKey) == LastBy([raw[0]], CanonicalKey, CombosKey);
    assert CanonicalKey("Top Products") != CombosKey;
    assert CanonicalKey("emotion") != ProductsKey;
    assert LastBy(raw, CanonicalKey, ProductsKey) == LastBy([raw[0]], CanonicalKey, ProductsKey);
    assert LastBy([raw[0]], CanonicalKey, CombosKey) == LastBy([], CanonicalKey, CombosKey);
  }

  lemma NormalizeListEmotion(v: Version, raw: Dict, xs: seq<Json>, products: Json)
    requires LastWith(raw, EmotionKey) == Some(JArr(xs))
    requires LastWith(raw, ProductsKey) == Some(products)
    requires LastWith(raw, CombosKey) == None
    ensures Normalize(v, raw) == Recommendation(JStr(Joined(v, xs)), products, JArr([]))
  {
    NormalizeSpec(v, raw);
  }

  /** An answer naming its products under "Top Products" and its emotion as a
      two-word list (for instance `["Content", "Calm"]`): the products are
      kept as they are, the words are joined with one space, and the missing
      combos default to the empty list. */
  lemma TopProductsAndTwoWords(v: Version, products: Json, a: string, b: string)
    requires Strip(a) == a && a != "" && Strip(b) == b && b != ""
    ensures Normalize(v, [("Top Products", products), ("emotion", JArr([JStr(a), JStr(b)]))])
            == Recommendation(JStr(a + " " + b), products, JArr([]))
  {
    var xs := [JStr(a), JStr(b)];
    var raw := [("Top Products", products), ("emotion", JArr(xs))];
    TopProductsLastWith(products, JArr(xs));
    NormalizeListEmotion(v, raw, xs, products);
    TwoWordsJoin(v, a, b);
  }

  /** A blank first word leaves the joined emotion with a leading space. */
  lemma JoinBlankFirst(w: string)
    requires Strip(w) == w
    ensures Joined(AsWritten, [JStr(""), JStr(w)]) == " " + w
  {
    StripEmpty();
    WordsOfStrings("", w);
    JoinTwo("", w);
  }

  /** As written, `{"emotion": ["", w]}` yields the emotion `" " + w`. */
  lemma AsWrittenBlankFirstWord(w: string)
    requires Strip(w) == w
    ensures Normalize(AsWritten, [(EmotionKey, JArr([JStr(""), JStr(w)]))]).emotion == JStr(" " + w)
  {
    var xs := [JStr(""), JStr(w)];
    var raw := [(EmotionKey, JArr(xs))];
    assert CanonicalKey(EmotionKey) == EmotionKey by { assert Lower("emotion") == "emotion"; }
    assert LastWith(raw, EmotionKey) == Some(JArr(xs));
    JoinBlankFirst(w);
    NormalizeEmotion(AsWritten, raw);
  }

  lemma StripLeadingSpace(w: string)
    requires Strip(w) == w && w != ""
    ensures Strip(" " + w) == w
  {
    StripFixedIff(w);
    assert AllSpace(" ") && AllSpace("");
    assert " " + w == " " + w + "";
    StripPadding(" ", w, "");
  }

  /** As written, the normaliser is not idempotent: for `{"emotion": ["", "Calm"]}`
      the first pass gives " Calm" and a second pass gives "Calm". */
  lemma AsWrittenNotIdempotent(w: string)
    requires Strip(w) == w && w != ""
    ensures var raw := [(EmotionKey, JArr([JStr(""), JStr(w)]))];
            && Normalize(AsWritten, raw).emotion == JStr(" " + w)
            && Normalize(AsWritten, Loads(ResponseJson(Normalize(AsWritten, raw), true).pairs)).emotion == JStr(w)
  {
    var rec := Normalize(AsWritten, [(EmotionKey, JArr([JStr(""), JStr(w)]))]);
    AsWrittenBlankFirstWord(w);
    ResponseDict(rec, true);
    NormalizeEmotion(AsWritten, ResponseJson(rec, true).pairs);
    StripLeadingSpace(w);
  }

  /** Without a blank word at either end of a list-valued emotion, the
      as-written normaliser computes what the corrected one does. */
  lemma AsWrittenAgreesWithoutBlankEnds(raw: Dict)
    requires NoBlankEnds(LastWith(raw, EmotionKey))
    ensures Normalize(AsWritten, raw) == Normalize(Intended, raw)
  {
    var c := Canonicalise(raw);
    assert Get(c, EmotionKey) == LastWith(raw, EmotionKey);
    CoercionsAgreeWithoutBlankEnds(c);
  }

  /** The answers on which a version is idempotent: every answer as
      intended, and as written those whose list-valued emotion has no blank
      word at either end. */
  predicate Settles(v: Version, raw: Dict) {
    v == AsWritten ==> NoBlankEnds(LastWith(raw, EmotionKey))
  }

  /** As written, the normaliser is idempotent on every answer whose
      list-valued emotion has no blank word at either end. */
  lemma AsWrittenIdempotentWithoutBlankEnds(raw: Dict, withStatus: bool)
    requires NoBlankEnds(LastWith(raw, EmotionKey))
    ensures Normalize(AsWritten, Loads(ResponseJson(Normalize(AsWritten, raw), withStatus).pairs)) == Normalize(AsWritten, raw)
  {
    AsWrittenAgreesWithoutBlankEnds(raw);
    NormalizeSpec(Intended, raw);
    RenormalizeRecord(AsWritten, Normalize(Intended, raw), withStatus);
  }

  /** Feeding a response back through the service reproduces the record,
      for every answer the version settles. */
  lemma NormalizeFixedPoint(v: Version, raw: Dict, withStatus: bool)
    requires Settles(v, raw)
    ensures Normalize(v, Loads(ResponseJson(Normalize(v, raw), withStatus).pairs)) == Normalize(v, raw)
  {
    match v
    case Intended => NormalizeIdempotent(raw, withStatus);
    case AsWritten => AsWrittenIdempotentWithoutBlankEnds(raw, withStatus);
  }
}

=== FILE: simple.dfy ===
/**
 * The pure parts of simple.py: the fields `process_video` reads from the
 * Gradio result, the input triple `get_food_recommendations` builds with a
 * fixed intent, and its response, which carries no `status` field.
 */
module Simple {
  import opened Wrappers
  import opened Values
  import opened Normalizer

  const VadField := "Final VAD Score"
  const ContextField := "Contextual Information"
  const FixedIntent := JArr([JStr("Hot"), JStr("Light"), JStr("Tangy")])

  /** `process_video`'s analysis dict: the two fields with their `get`
      defaults and no check of length or type. A result that is not a dict
      has no `get`, which raises. */
  function VideoAnalysis(result: Json): (r: Option<Dict>)
    ensures r.Some? <==> result.JObj?
    ensures r.Some? ==> Get(r.value, "vad_score") == Some(Get(result.pairs, VadField).GetOr(ZeroVad))
    ensures r.Some? ==> Get(r.value, "contextual_data") == Some(Get(result.pairs, ContextField).GetOr(JArr([])))
  {
    if !result.JObj? then None
    else
      var vad := Get(result.pairs, VadField).GetOr(ZeroVad);
      var context := Get(result.pairs, ContextField).GetOr(JArr([]));
      GetTwo("vad_score", vad, "contextual_data", context, "vad_score");
      GetTwo("vad_score", vad, "contextual_data", context, "contextual_data");
      Some([("vad_score", vad), ("contextual_data", context)])
  }

  /** The triple sent upstream: the analysis' VAD score and context (`null`
      when absent) around the fixed intent list. */
  function InputTriple(analysis: Dict): (r: Json)
    ensures r.JArr? && |r.items| == 3
    ensures r.items[1] == FixedIntent
    ensures r.items[0] == Get(analysis, "vad_score").GetOr(JNull)
    ensures r.items[2] == Get(analysis, "contextual_data").GetOr(JNull)
  {
    JArr([Get(analysis, "vad_score").GetOr(JNull), FixedIntent, Get(analysis, "contextual_data").GetOr(JNull)])
  }

  /** The intent sent upstream never depends on the analysis. */
  lemma IntentIsFixed(a1: Dict, a2: Dict)
    ensures InputTriple(a1).items[1] == InputTriple(a2).items[1] == FixedIntent
  {
  }

  /** From Gradio result to the triple: the two fields pass through
      unchanged, whatever their shape. */
  lemma VideoToInput(result: Json)
    requires result.JObj?
    ensures InputTriple(VideoAnalysis(result).value)
            == JArr([Get(result.pairs, VadField).GetOr(ZeroVad), FixedIntent,
                     Get(result.pairs, ContextField).GetOr(JArr([]))])
  {
  }

  /** The response of `get_food_recommendations` to the pairs of the
      service's JSON answer, parsed and normalised; `v` selects the
      normaliser as written or as intended. */
  function Response(v: Version, answer: Dict): (r: Json)
    ensures r.JObj? && |r.pairs| == 4
    ensures r.pairs[0] == (EmotionKey, EmotionBy(v, LastWith(Loads(answer), EmotionKey)))
    ensures r.pairs[1] == (ProductsKey, LastWith(Loads(answer), ProductsKey).GetOr(JArr([])))
    ensures r.pairs[2] == (CombosKey, LastWith(Loads(answer), CombosKey).GetOr(JArr([])))
    ensures r.pairs[3] == ("message", JStr(SuccessMessage))
  {
    NormalizeSpec(v, Loads(answer));
    ResponseJson(Normalize(v, Loads(answer)), false)
  }

  /** The response is the other copies' response without its leading
      `status` pair. */
  lemma SameAsOtherCopies(v: Version, answer: Dict)
    ensures ResponseJson(Normalize(v, Loads(answer)), true).pairs == [("status", JStr("success"))] + Response(v, answer).pairs
  {
  }

  /** Feeding a response back as the answer reproduces it, for every answer
      the version settles. */
  lemma ResponseIdempotent(v: Version, answer: Dict)
    requires Settles(v, Loads(answer))
    ensures Response(v, Response(v, answer).pairs) == Response(v, answer)
  {
    NormalizeFixedPoint(v, Loads(answer), false);
  }
}

=== FILE: text.dfy ===
/**
 * The few pieces of Python's `str` behaviour the services rely on:
 * `str.strip()`, `str.lower()`, `sep.join(parts)` and the decimal and
 * quoted renderings that `str()`/`repr()` produce.
 */
module Text {

  /** Python's `str.isspace()` for one character: exactly the characters that
      `str.strip()` with no argument removes. */
  predicate IsSpace(c: char) {
    || c == ' '
    || '\t' <= c <= '\r'
    || '\U{1c}' <= c <= '\U{1f}'
    || c == '\U{85}' || c == '\U{a0}' || c == '\U{1680}'
    || '\U{2000}' <= c <= '\U{200a}'
    || c == '\U{2028}' || c == '\U{2029}' || c == '\U{202f}' || c == '\U{205f}' || c == '\U{3000}'
  }

  predicate AllSpace(s: string) {
    forall i :: 0 <= i < |s| ==> IsSpace(s[i])
  }

  /** A string with no whitespace at either end: what `strip()` returns. */
  predicate IsStripped(s: string) {
    |s| == 0 || (!IsSpace(s[0]) && !IsSpace(s[|s| - 1]))
  }

  /** Python's `s.strip()`: whitespace is dropped from either end until both
      ends are free of it. */
  function Strip(s: string): (r: string)
    ensures IsStripped(r)
    decreases |s|
  {
    if |s| > 0 && IsSpace(s[0]) then Strip(s[1..])
    else if |s| > 0 && IsSpace(s[|s| - 1]) then Strip(s[..|s| - 1])
    else s
  }

  lemma StripEmpty()
    ensures Strip("") == ""
  {
  }

  /** `strip()` leaves a string alone exactly when it has no whitespace at either end. */
  lemma StripFixedIff(s: string)
    ensures Strip(s) == s <==> IsStripped(s)
  {
  }

  /** `strip()` leaves nothing exactly of a string made only of whitespace:
      the blank words an emotion list can hold. */
  lemma {:induction false} StripBlank(s: string)
    ensures Strip(s) == "" <==> AllSpace(s)
    decreases |s|
  {
    if |s| > 0 && IsSpace(s[0]) {
      StripBlank(s[1..]);
      AllSpaceFront(s);
    } else if |s| > 0 && IsSpace(s[|s| - 1]) {
      StripBlank(s[..|s| - 1]);
      AllSpaceBack(s);
    }
  }

  lemma AllSpaceFront(s: string)
    requires |s| > 0
    ensures AllSpace(s) <==> IsSpace(s[0]) && AllSpace(s[1..])
  {
    assert forall i :: 0 < i < |s| ==> s[i] == s[1..][i - 1];
  }

  lemma AllSpaceBack(s: string)
    requires |s| > 0
    ensures AllSpace(s) <==> IsSpace(s[|s| - 1]) && AllSpace(s[..|s| - 1])
  {
    assert forall i :: 0 <= i < |s| - 1 ==> s[i] == s[..|s| - 1][i];
  }

  lemma StripIdempotent(s: string)
    ensures Strip(Strip(s)) == Strip(s)
  {
    StripFixedIff(Strip(s));
  }

  /** Leading whitespace in front of a string that starts with a
      non-space is removed. */
  lemma {:induction false} StripLeft(before: string, t: string)
    requires AllSpace(before) && |t| > 0 && !IsSpace(t[0])
    ensures Strip(before + t) == Strip(t)
    decreases |before|
  {
    if |before| > 0 {
      var x := before + t;
      assert x[0] == before[0];
      assert x[1..] == before[1..] + t;
      StripLeft(before[1..], t);
    } else {
      assert before + t == t;
    }
  }

  /** Trailing whitespace behind a string that starts and ends with a
      non-space is removed. */
  lemma {:induction false} StripRight(s: string, after: string)
    requires AllSpace(after) && |s| > 0 && !IsSpace(s[0])
    ensures Strip(s + after) == Strip(s)
    decreases |after|
  {
    if |after| > 0 {
      var x := s + after;
      assert x[0] == s[0];
      assert IsSpace(x[|x| - 1]);
      assert x[..|x| - 1] == s + after[..|after| - 1];
      StripRight(s, after[..|after| - 1]);
    } else {
      assert s + after == s;
    }
  }

  /** `strip()` removes exactly the surrounding whitespace: padding a stripped
      string with whitespace on either side does not change what it returns. */
  lemma StripPadding(before: string, s: string, after: string)
    requires AllSpace(before) && AllSpace(after) && IsStripped(s) && |s| > 0
    ensures Strip(before + s + after) == s
  {
    assert before + s + after == before + (s + after);
    StripLeft(before, s + after);
    StripRight(s, after);
    StripFixedIff(s);
  }

  /** ASCII lower-casing of one character. */
  function LowerChar(c: char): char {
    if 'A' <= c <= 'Z' then (c as int + 32) as char else c
  }

  /** `s.lower()`, restricted to the ASCII letters. */
  function Lower(s: string): (r: string)
    ensures |r| == |s|
  {
    seq(|s|, i requires 0 <= i < |s| => LowerChar(s[i]))
  }

  /** Python's `sep.join(parts)`. */
  function Join(sep: string, parts: seq<string>): string {
    if |parts| == 0 then ""
    else if |parts| == 1 then parts[0]
    else parts[0] + sep + Join(sep, parts[1..])
  }

  lemma JoinTwo(a: string, b: string)
    ensures Join(" ", [a, b]) == a + " " + b
    ensures a == "" ==> Join(" ", [a, b]) == " " + b
  {
    assert [a, b][1..] == [b];
  }

  /** A non-empty join begins with its first part and ends with its last. */
  lemma {:induction false} JoinEnds(sep: string, parts: seq<string>)
    requires |parts| > 0
    ensures |Join(sep, parts)| >= |parts[0]| && Join(sep, parts)[..|parts[0]|] == parts[0]
    ensures |Join(sep, parts)| >= |parts[|parts| - 1]|
    ensures Join(sep, parts)[|Join(sep, parts)| - |parts[|parts| - 1]|..] == parts[|parts| - 1]
  {
    if |parts| > 1 {
      JoinEnds(sep, parts[1..]);
      var rest := Join(sep, parts[1..]);
      assert Join(sep, parts) == parts[0] + sep + rest;
    }
  }

  /** Joining stripped words with one space gives a stripped string whenever
      the first and the last word are not empty. */
  lemma JoinStripped(parts: seq<string>)
    requires forall i :: 0 <= i < |parts| ==> IsStripped(parts[i])
    requires |parts| > 1 ==> parts[0] != "" && parts[|parts| - 1] != ""
    ensures IsStripped(Join(" ", parts))
  {
    if |parts| > 1 {
      JoinEnds(" ", parts);
      var j := Join(" ", parts);
      assert j[0] == parts[0][0];
      var last := parts[|parts| - 1];
      assert j[|j| - 1] == last[|last| - 1];
    }
  }

  function Digit(d: nat): char
    requires d < 16
  {
    "0123456789abcdef"[d]
  }

  /** Decimal text of a natural number, as `str(n)` prints it. */
  function NatText(n: nat): string
    decreases n
  {
    if n < 10 then [Digit(n)] else NatText(n / 10) + [Digit(n % 10)]
  }

  /** `str(i)` for a Python `int`. */
  function IntText(i: int): string {
    if i < 0 then "-" + NatText(-i) else NatText(i)
  }

  /** The two lower-case hexadecimal digits `repr` uses in a `\xNN` escape. */
  function Hex2(n: nat): string
    requires n < 256
  {
    [Digit(n / 16), Digit(n % 16)]
  }

  /** How `repr` writes one character of a string quoted with `q`. */
  function EscapeChar(c: char, q: char): string {
    if c == q || c == '\\' then ['\\', c]
    else if c == '\n' then "\\n"
    else if c == '\r' then "\\r"
    else if c == '\t' then "\\t"
    else if c < ' ' || ('\U{7f}' <= c <= '\U{a0}') || c == '\U{ad}' then "\\x" + Hex2(c as int)
    else [c]
  }

  function EscapeAll(s: string, q: char): string
    decreases |s|
  {
    if |s| == 0 then "" else EscapeChar(s[0], q) + EscapeAll(s[1..], q)
  }

  /** `repr(s)` for a Python `str`: single quotes unless the text holds a single
      quote and no double quote. */
  function Quote(s: string): string {
    var q := if '\'' in s && '"' !in s then '"' else '\'';
    [q] + EscapeAll(s, q) + [q]
  }
}

=== FILE: values.dfy ===
/**
 * The JSON-like values the services exchange, as Python holds them after
 * `json.loads`: `None`, `bool`, `int`, `float`, `str`, `list` and `dict`.
 * A dict is an ordered list of pairs, so that insertion order and the
 * "last assignment wins" behaviour of Python dicts can be stated.
 */
module Values {
  import opened Wrappers
  import opened Text

  /** A Python float is carried as the text `repr()` gives it ("0.5", "-0.0",
      "1e-05"); nothing in the services does arithmetic on one. */
  datatype Json =
    | JNull
    | JBool(b: bool)
    | JInt(i: int)
    | JFloat(repr: string)
    | JStr(s: string)
    | JArr(items: seq<Json>)
    | JObj(pairs: seq<(string, Json)>)

  type Dict = seq<(string, Json)>

  /** The `[0, 0, 0]` VAD score the services fall back to. */
  const ZeroVad := JArr([JInt(0), JInt(0), JInt(0)])

  /** Python's truth value of `x` (`if x:`). A float is false exactly when
      it is zero, whose `repr` is "0.0" or "-0.0". */
  predicate Truthy(x: Json) {
    match x
    case JNull => false
    case JBool(b) => b
    case JInt(i) => i != 0
    case JFloat(t) => t != "0.0" && t != "-0.0"
    case JStr(s) => s != ""
    case JArr(xs) => xs != []
    case JObj(ps) => ps != []
  }

  /** The falsy values are exactly Python's: `None`, `False`, zero, the
      empty string, the empty list and the empty dict. */
  lemma FalsyValues(x: Json)
    ensures !Truthy(x) <==> x in {JNull, JBool(false), JInt(0), JFloat("0.0"), JFloat("-0.0"), JStr(""), JArr([]), JObj([])}
  {
  }

  /** Whether `json.dumps(x, allow_nan=False)` accepts `x`: no float inside
      it is a NaN or an infinity, whose `repr` is "nan", "inf" or "-inf". */
  predicate Finite(x: Json) {
    match x
    case JFloat(t) => t != "nan" && t != "inf" && t != "-inf"
    case JArr(xs) => forall i :: 0 <= i < |xs| ==> Finite(xs[i])
    case JObj(ps) => forall i :: 0 <= i < |ps| ==> Finite(ps[i].1)
    case _ => true
  }

  /** `isinstance(x, (int, float))`; a `bool` is an `int` in Python. */
  predicate IsNumber(x: Json) {
    x.JBool? || x.JInt? || x.JFloat?
  }

  /** Python's `len(x)`, or None where `len` raises a `TypeError`. */
  function PyLen(x: Json): (r: Option<nat>)
    ensures r.Some? <==> x.JStr? || x.JArr? || x.JObj?
  {
    match x
    case JStr(s) => Some(|s|)
    case JArr(xs) => Some(|xs|)
    case JObj(ps) => Some(|ps|)
    case _ => None
  }

  /** The name Python gives the type of `x` in its error messages. */
  function TypeName(x: Json): string {
    match x
    case JNull => "NoneType"
    case JBool(_) => "bool"
    case JInt(_) => "int"
    case JFloat(_) => "float"
    case JStr(_) => "str"
    case JArr(_) => "list"
    case JObj(_) => "dict"
  }

  predicate HasKey(d: Dict, k: string) {
    exists i :: 0 <= i < |d| && d[i].0 == k
  }

  predicate UniqueKeys(d: Dict) {
    forall i, j :: 0 <= i < j < |d| ==> d[i].0 != d[j].0
  }

  /** `d.get(k)` / `d[k]`. A Python dict has distinct keys (`Loads` builds one
      from the pairs of a JSON object); on pairs with a repeated key the last
      occurrence wins, which is the value `json.loads` keeps for it. */
  function Get(d: Dict, k: string): Option<Json> {
    if |d| == 0 then None
    else
      var later := Get(d[1..], k);
      if later.Some? then later
      else if d[0].0 == k then Some(d[0].1)
      else None
  }

  /** A lookup succeeds exactly when the key is present, and then returns the
      value of the key's last occurrence. */
  lemma {:induction false} GetSpec(d: Dict, k: string)
    ensures Get(d, k).Some? <==> HasKey(d, k)
    ensures Get(d, k).Some? ==> exists i :: 0 <= i < |d| && d[i] == (k, Get(d, k).value)
                                             && forall j :: i < j < |d| ==> d[j].0 != k
  {
    if |d| > 0 {
      var tail := d[1..];
      GetSpec(tail, k);
      if Get(tail, k).Some? {
        var v := Get(tail, k).value;
        var i :| 0 <= i < |tail| && tail[i] == (k, v) && forall j :: i < j < |tail| ==> tail[j].0 != k;
        assert d[i + 1] == (k, v);
        assert forall j :: i + 1 < j < |d| ==> d[j] == tail[j - 1];
      } else {
        if d[0].0 == k {
          assert forall j :: 0 < j < |d| ==> d[j] == tail[j - 1];
        }
      }
    }
  }

  /** In a dict without repeated keys the entry holding `k` is the one `Get` finds. */
  lemma GetUnique(d: Dict, i: nat)
    requires UniqueKeys(d) && i < |d|
    ensures Get(d, d[i].0) == Some(d[i].1)
  {
    GetSpec(d, d[i].0);
  }

  /** Looking up either key of a two-pair dict. */
  lemma GetTwo(k1: string, v1: Json, k2: string, v2: Json, c: string)
    ensures Get([(k1, v1), (k2, v2)], c) == if c == k2 then Some(v2) else if c == k1 then Some(v1) else None
  {
    var d := [(k1, v1), (k2, v2)];
    assert d[1..] == [(k2, v2)];
    assert d[1..][1..] == [];
    assert Get(d[1..][1..], c) == None;
    assert Get(d[1..], c) == if c == k2 then Some(v2) else None;
  }

  /** Python's `d[k] = v`: an existing key keeps its place and takes the new
      value; a new key is appended. */
  function Put(d: Dict, k: string, v: Json): Dict {
    if |d| == 0 then [(k, v)]
    else if d[0].0 == k then [(k, v)] + d[1..]
    else [d[0]] + Put(d[1..], k, v)
  }

  /** Assignment adds at most one pair, introduces no key but `k`, and keeps
      keys distinct. Assigning a key the dict holds moves nothing: every
      position keeps its key, and every pair of another key is untouched. */
  lemma {:induction false} PutSpec(d: Dict, k: string, v: Json)
    ensures |Put(d, k, v)| == |d| || |Put(d, k, v)| == |d| + 1
    ensures forall i :: 0 <= i < |Put(d, k, v)| ==> Put(d, k, v)[i].0 == k || HasKey(d, Put(d, k, v)[i].0)
    ensures UniqueKeys(d) ==> UniqueKeys(Put(d, k, v))
    ensures HasKey(d, k) ==>
              && |Put(d, k, v)| == |d|
              && forall i :: 0 <= i < |d| ==> Put(d, k, v)[i].0 == d[i].0 && (d[i].0 != k ==> Put(d, k, v)[i] == d[i])
  {
    if HasKey(d, k) {
      PutInPlace(d, k, v);
    }
    if |d| > 0 && d[0].0 != k {
      var tail := d[1..];
      PutSpec(tail, k, v);
      var r := Put(d, k, v);
      assert r[1..] == Put(tail, k, v);
      forall i | 0 < i < |r| && r[i].0 != k ensures HasKey(d, r[i].0) {
        var j :| 0 <= j < |tail| && tail[j].0 == r[i].0;
        assert d[j + 1].0 == r[i].0;
      }
      if UniqueKeys(d) {
        forall i | 0 < i < |r| ensures r[i].0 != d[0].0 {
          if r[i].0 != k {
            var j :| 0 <= j < |tail| && tail[j].0 == r[i].0;
            assert d[j + 1].0 == r[i].0;
          }
        }
      }
    }
  }

  lemma {:induction false} PutInPlace(d: Dict, k: string, v: Json)
    requires HasKey(d, k)
    ensures |Put(d, k, v)| == |d|
    ensures forall i :: 0 <= i < |d| ==> Put(d, k, v)[i].0 == d[i].0 && (d[i].0 != k ==> Put(d, k, v)[i] == d[i])
  {
    if d[0].0 != k {
      var j :| 0 <= j < |d| && d[j].0 == k;
      assert d[1..][j - 1].0 == k;
      PutInPlace(d[1..], k, v);
      assert Put(d, k, v) == [d[0]] + Put(d[1..], k, v);
    }
  }

  /** Assigning a key the dict does not hold appends it. */
  lemma {:induction false} PutNew(d: Dict, k: string, v: Json)
    requires !HasKey(d, k)
    ensures Put(d, k, v) == d + [(k, v)]
  {
    if |d| > 0 {
      PutNew(d[1..], k, v);
      assert [d[0]] + (d[1..] + [(k, v)]) == d + [(k, v)];
    }
  }

  /** After `d[k] = v`, `k` reads back `v` and every other key reads what it read before. */
  lemma {:induction false} GetPut(d: Dict, k: string, v: Json, c: string)
    requires UniqueKeys(d)
    ensures Get(Put(d, k, v), c) == if c == k then Some(v) else Get(d, c)
  {
    if |d| == 0 {
    } else if d[0].0 == k {
      var r := Put(d, k, v);
      assert r[1..] == d[1..];
      assert !HasKey(d[1..], k);
      GetSpec(d[1..], k);
    } else {
      var r := Put(d, k, v);
      assert r[1..] == Put(d[1..], k, v);
      GetPut(d[1..], k, v, c);
    }
  }

  /** A pair added at the end of the pairs is the last occurrence of its key. */
  lemma {:induction false} GetSnoc(d: Dict, k: string, v: Json, c: string)
    ensures Get(d + [(k, v)], c) == if c == k then Some(v) else Get(d, c)
  {
    if |d| == 0 {
      assert d + [(k, v)] == [(k, v)];
      assert [(k, v)][1..] == [];
    } else {
      assert (d + [(k, v)])[1..] == d[1..] + [(k, v)];
      GetSnoc(d[1..], k, v, c);
    }
  }

  /** `json.loads` of a JSON object: its pairs are assigned in text order into
      a fresh dict, so a repeated key keeps the place of its first occurrence
      and the value of its last. */
  function Loads(pairs: Dict): (d: Dict)
    ensures UniqueKeys(d)
  {
    if |pairs| == 0 then []
    else
      var init := Loads(pairs[..|pairs| - 1]);
      PutSpec(init, pairs[|pairs| - 1].0, pairs[|pairs| - 1].1);
      Put(init, pairs[|pairs| - 1].0, pairs[|pairs| - 1].1)
  }

  /** Parsing keeps, for every key, the value of its last occurrence. */
  lemma {:induction false} LoadsGet(pairs: Dict, c: string)
    ensures Get(Loads(pairs), c) == Get(pairs, c)
  {
    if |pairs| > 0 {
      var init := pairs[..|pairs| - 1];
      var last := pairs[|pairs| - 1];
      LoadsGet(init, c);
      GetPut(Loads(init), last.0, last.1, c);
      assert init + [(last.0, last.1)] == pairs;
      GetSnoc(init, last.0, last.1, c);
    }
  }

  /** An object without repeated keys parses to its own pairs, in order. */
  lemma {:induction false} LoadsUnique(pairs: Dict)
    requires UniqueKeys(pairs)
    ensures Loads(pairs) == pairs
  {
    if |pairs| > 0 {
      var init := pairs[..|pairs| - 1];
      var last := pairs[|pairs| - 1];
      LoadsUnique(init);
      assert !HasKey(init, last.0) by {
        forall i | 0 <= i < |init| ensures init[i].0 != last.0 {
          assert init[i] == pairs[i];
        }
      }
      PutNew(init, last.0, last.1);
      assert init + [(last.0, last.1)] == pairs;
    }
  }

  /** The position of the first pair holding `k`. */
  function FirstIndex(d: Dict, k: string): (i: nat)
    requires HasKey(d, k)
    ensures i < |d| && d[i].0 == k
    ensures forall j :: 0 <= j < i ==> d[j].0 != k
  {
    if d[0].0 == k then 0
    else
      assert HasKey(d[1..], k) by {
        var j :| 0 <= j < |d| && d[j].0 == k;
        assert d[1..][j - 1].0 == k;
      }
      1 + FirstIndex(d[1..], k)
  }

  /** A pair added at the end does not move the first occurrence of a key
      already present. */
  lemma FirstIndexSnoc(d: Dict, x: (string, Json), k: string)
    requires HasKey(d, k)
    ensures HasKey(d + [x], k)
    ensures FirstIndex(d + [x], k) == FirstIndex(d, k)
  {
    var i := FirstIndex(d, k);
    assert (d + [x])[i] == d[i];
    var i' := FirstIndex(d + [x], k);
    assert i' <= i;
    assert (d + [x])[i'] == d[i'];
  }

  /** Parsing keeps exactly the keys of the object. */
  lemma LoadsHasKey(pairs: Dict, c: string)
    ensures HasKey(Loads(pairs), c) <==> HasKey(pairs, c)
  {
    LoadsGet(pairs, c);
    GetSpec(Loads(pairs), c);
    GetSpec(pairs, c);
  }

  /** Parsing lists the keys in the order of their first occurrence: a
      repeated key keeps its first place. */
  lemma {:induction false} LoadsKeyOrder(pairs: Dict, i: nat, j: nat)
    requires i < j < |Loads(pairs)|
    ensures HasKey(pairs, Loads(pairs)[i].0) && HasKey(pairs, Loads(pairs)[j].0)
    ensures FirstIndex(pairs, Loads(pairs)[i].0) < FirstIndex(pairs, Loads(pairs)[j].0)
  {
    var init := pairs[..|pairs| - 1];
    var last := pairs[|pairs| - 1];
    assert init + [last] == pairs;
    var d0 := Loads(init);
    var d := Loads(pairs);
    assert d == Put(d0, last.0, last.1);
    PutSpec(d0, last.0, last.1);
    if HasKey(d0, last.0) {
      assert d[i].0 == d0[i].0 && d[j].0 == d0[j].0;
      LoadsKeyOrder(init, i, j);
      FirstIndexSnoc(init, last, d0[i].0);
      FirstIndexSnoc(init, last, d0[j].0);
    } else {
      PutNew(d0, last.0, last.1);
      assert d[i] == d0[i];
      LoadsHasKey(init, d0[i].0);
      assert HasKey(d0, d0[i].0);
      FirstIndexSnoc(init, last, d0[i].0);
      if j < |d0| {
        assert d[j] == d0[j];
        LoadsKeyOrder(init, i, j);
        FirstIndexSnoc(init, last, d0[j].0);
      } else {
        assert d[j].0 == last.0;
        LoadsHasKey(init, last.0);
        assert pairs[|init|].0 == last.0;
        assert forall m :: 0 <= m < |init| ==> pairs[m].0 == init[m].0 != last.0;
        assert FirstIndex(pairs, last.0) == |init|;
      }
    }
  }

  /** A key repeated around another one: the first place, the last value. */
  lemma LoadsRepeatedKey(a: Json, b: Json, c: Json)
    ensures Loads([("Emotion", a), ("emotion", b), ("Emotion", c)]) == [("Emotion", c), ("emotion", b)]
  {
    var p := [("Emotion", a), ("emotion", b), ("Emotion", c)];
    assert p[..2][..1] == [("Emotion", a)];
    assert p[..2][..1][..0] == [];
    assert Loads(p[..2][..1]) == [("Emotion", a)];
    assert "Emotion" != "emotion" by { assert "Emotion"[0] != "emotion"[0]; }
    assert Put([("Emotion", a)], "emotion", b) == [("Emotion", a)] + Put([], "emotion", b);
    assert Loads(p[..2]) == [("Emotion", a), ("emotion", b)];
    assert Put([("Emotion", a), ("emotion", b)], "Emotion", c) == [("Emotion", c), ("emotion", b)];
  }

  /** `str(x)`: a string is itself, everything else is its `repr`. */
  function Str(x: Json): string {
    match x
    case JStr(s) => s
    case _ => Repr(x)
  }

  /** `str()` of a string is the string itself. */
  lemma StrOfString(s: string)
    ensures Str(JStr(s)) == s
  {
  }

  /** `repr(x)`, with `[a, b]` for a list and `{'k': v}` for a dict. */
  function Repr(x: Json): string
    decreases x, 1
  {
    match x
    case JNull => "None"
    case JBool(b) => if b then "True" else "False"
    case JInt(i) => IntText(i)
    case JFloat(t) => t
    case JStr(s) => Quote(s)
    case JArr(xs) => "[" + ReprItems(x, xs) + "]"
    case JObj(ps) => "{" + ReprPairs(x, ps) + "}"
  }

  function ReprItems(ghost parent: Json, xs: seq<Json>): string
    requires forall i :: 0 <= i < |xs| ==> xs[i] < parent
    decreases parent, 0, |xs|
  {
    if |xs| == 0 then ""
    else if |xs| == 1 then Repr(xs[0])
    else Repr(xs[0]) + ", " + ReprItems(parent, xs[1..])
  }

  function ReprPairs(ghost parent: Json, ps: Dict): string
    requires forall i :: 0 <= i < |ps| ==> ps[i].1 < parent
    decreases parent, 0, |ps|
  {
    if |ps| == 0 then ""
    else
      var item := Quote(ps[0].0) + ": " + Repr(ps[0].1);
      if |ps| == 1 then item else item + ", " + ReprPairs(parent, ps[1..])
  }
}

=== FILE: wrappers.dfy ===
/** Failure-compatible Option and Result types used throughout the model. */
module Wrappers {

  datatype Option<+T> = None | Some(value: T) {

    /** The wrapped value, or `default` when there is none (Python's `d.get(k, default)`). */
    function GetOr(default: T): T {
      match this
      case Some(v) => v
      case None => default
    }
  }

  datatype Result<+R, +E> = Success(value: R) | Failure(error: E) {

    predicate IsFailure() {
      Failure?
    }

    function PropagateFailure<U>(): Result<U, E>
      requires Failure?
    {
      Failure(error)
    }

    function Extract(): R
      requires Success?
    {
      value
    }
  }
}
